=== FILE: README.md ===
# Hotel reservation engine — a Dafny model

This project models the reservation engine of a small hotel-chain booking system, together with the comma-separated file format it reads and writes. The chain has three hotel tiers: 3-star, 4-star and 5-star. Each room type has a number of rooms, a maximum number of guests per room and a rate for each weekday.

The engine covers these parts:

- **Availability.** Decides whether one more room of a type can be booked for a stay. It counts the rooms of that type held by existing reservations that conflict with the stay.
- **Pricing.** A room costs its weekday rate for every night from check-in up to check-out. An advance ("AP") reservation pays 95% of that. A multi-room booking pays the sum of its rooms.
- **Creation.** All or nothing: every room must pass the availability check, or nothing is booked.
- **Cancellation.** Standard reservations are refunded in full when cancelled at least two days before check-in. Advance reservations are never refunded.
- **Lookup** by reference number.
- **Reports** over a date window: occupancy figures, occupancy rates and billing per tier.
- **Tier classification** by room-type name, when the inventory is loaded.

The file codec covers:

- splitting lines at commas;
- reading a file into a rectangle of fields;
- the 13-column header;
- the record layout of a reservation file.

The model is functional. Dates are whole days since 1970-01-01, a Thursday. The weekday index is `(d + 3) % 7`, with Monday = 0. The reservation store is a `seq<Reservation>`. It is passed to every operation, and the operations that change it (create, cancel) return the new store. The inventory is a map from room-type name to `RoomType`. Money and rates are exact `real`s. "Today" is an explicit parameter.

Modules, one per component: `Common` (Option, Result), `Calendar`, `Hotel` (inventory, tier rules, load classification), `Booking` (records, store predicates), `Availability`, `Pricing`, `Lifecycle` (create, lookup, cancel), `Reports`, `Csv`.

### Behaviour kept exactly as the code has it

- **The availability scan stops early.** The scan ends at the first reservation it judges disjoint from the query, so reservations stored after that one are never counted, although they may overlap the query. The model keeps this stop. `Availability.ScanUnderCounts` shows the scan can only under-count. `Availability.ScanMissesLaterConflict` gives a store in which the only room of a type is booked for the query's dates and is still reported available.
- **The four-clause "disjoint" test.** For a stay of at least one night it equals the half-open interval test, where touching stays do not conflict (`Availability.JudgedDisjointIsHalfOpen`). For a zero-night query it is not.
- **Rooms in one request are not checked against each other.** Each room of a request is checked against the store as it was before the call. So, whatever the store, two rooms of a type with one room left are both accepted (`Lifecycle.RequestCanOverbookItself`).
- **The refund boundary.** The code refunds unless today is after check-in − 2 (ReservationSystem.java:169-170), so cancelling exactly two days before check-in is still refunded. Its message speaks of cancelling "48 hours after the check-in date" (ReservationSystem.java:171-172); the model follows the comparison, not the message.
- **Two tier rules.** Inventory loading files names containing "Deluxe" as 5-star, then "Executive" as 4-star, and everything else as 3-star. Billing credits "Classic" to 3-star, then "Executive" to 4-star, and everything else to 5-star. Both rules are kept separately. `Hotel.TierRulesAgreement` states exactly when they agree.

## Model

| member | source | states |
|---|---|---|
| `Calendar.Weekday` | ReservationSystem.java:79 | the weekday index of any date is one of the seven rate-table positions |
| `Calendar.WeekdayShift` | ReservationSystem.java:79-81 | moving k days forward moves the weekday index k places round the week |
| `Calendar.KnownWeekdays` | ReservationSystem.java:79 | day 0 is a Thursday (index 3) and 2024-03-04 a Monday (index 0) |
| `Hotel.InventoryTier` | ReservationSystem.java:230-236 | a room type is filed 5-star exactly when its name mentions "Deluxe" at some position, 4-star exactly when it mentions "Executive" but not "Deluxe", 3-star otherwise |
| `Hotel.BillingTier` | ReservationSystem.java:346-352 | a room's income is credited to 3-star exactly when its type mentions "Classic", to 4-star exactly when it mentions "Executive" but not "Classic", to 5-star otherwise |
| `Hotel.ContainsIffOccurs` | ReservationSystem.java:230-232 | the substring test holds exactly when the name occurs at some index of the room-type name |
| `Hotel.LoadTiers` | ReservationSystem.java:230-236 | every loaded room type lands in exactly one hotel (the three hotels together hold the rows as a multiset), and each hotel holds only names its rule selects |
| `Hotel.LoadTiersAppend` | ReservationSystem.java:230-236 | loading more rows only appends to each hotel, so row order is kept |
| `Hotel.TierRulesAgreement` | ReservationSystem.java:346-352 | the billing rule and the inventory rule give the same tier iff the name carries exactly one consistent marker ("Deluxe" alone, "Executive" without the others, "Classic" alone) |
| `Hotel.UnmarkedNameDisagrees` | ReservationSystem.java:346-352 | every name containing none of "Deluxe", "Executive" and "Classic" is 3-star when loaded but its income is credited to 5-star |
| `Hotel.TwinDisagrees` | ReservationSystem.java:346-352 | the name "Twin" is such a name: loaded as 3-star, billed as 5-star |
| `Availability.JudgedDisjoint` | ReservationSystem.java:45-48 | the four-clause test never clears a query whose nights overlap the booked nights |
| `Availability.UnitsOfAppend` | ReservationSystem.java:52-58 | rooms of a type in two room lists are the rooms in each list added up |
| `Availability.Taken` | ReservationSystem.java:41-59 | the count the scan reaches is never more than the rooms of the type in the whole store |
| `Availability.Available` | ReservationSystem.java:40-64 | a type without rooms is never available, and a type whose conflicting bookings leave a room free is always available |
| `Availability.FirstCleared` | ReservationSystem.java:45-50 | the position where the scan stops: no earlier reservation is judged disjoint, the one there is |
| `Availability.TakenCountsPrefix` | ReservationSystem.java:42-59 | the scan counts exactly the rooms of the type held by the reservations before the first one judged disjoint |
| `Availability.AvailableIff` | ReservationSystem.java:40-64 | a room is unavailable iff the rooms of its type booked ahead of the first disjoint reservation reach the type's capacity |
| `Availability.AvailableOnEmptyStore` | ReservationSystem.java:40-64 | with no reservations a type is available iff it has at least one room |
| `Availability.TouchingStaysClear` | ReservationSystem.java:45-48 | a query starting strictly before a booking's check-in day and ending on it, or starting on its check-out day and ending strictly after it, is judged disjoint from it |
| `Availability.JudgedDisjointIsHalfOpen` | ReservationSystem.java:45-48 | for a query of at least one night, judged disjoint iff one stay ends on or before the day the other begins |
| `Availability.ScanUnderCounts` | ReservationSystem.java:42-59 | the early stop never counts more than all conflicting bookings, and counts them all when nothing is judged disjoint |
| `Availability.ScanMissesLaterConflict` | ReservationSystem.java:45-50 | a concrete store where a booking holding the only room is ignored because a disjoint booking precedes it |
| `Availability.AvailableWithoutEarlyStop` | ReservationSystem.java:40-64 | when no booking is judged disjoint, available iff the conflicting bookings of the type leave capacity free |
| `Pricing.StaySum` | ReservationSystem.java:75-82 | the night sum is never negative when no rate is, and a one-night stay costs its check-in weekday's rate |
| `Pricing.RoomCost` | ReservationSystem.java:74-87 | a room's price lies between 0 and its undiscounted night sum when that sum is not negative, and is 0 exactly when the night sum is 0 |
| `Pricing.CalcRoomCost` | ReservationSystem.java:74-87 | walking the nights one by one gives the sum of each night's weekday rate, times 0.95 for "AP"; the walk ends when check-in is not after check-out |
| `Pricing.CalcTotalCost` | ReservationSystem.java:97-104 | a multi-room price is the sum of the single-room prices, in list order |
| `Pricing.EmptyStayIsFree` | ReservationSystem.java:78-82 | a stay checking out on its check-in day costs 0 whatever the rates |
| `Pricing.StaySumSplit` | ReservationSystem.java:78-82 | a stay cut at any night costs the sum of its two parts |
| `Pricing.MondayWeek` | ReservationSystem.java:78-82 | seven nights from a Monday cost the seven rates in table order |
| `Pricing.SlideWeek` | ReservationSystem.java:78-82 | moving a seven-night stay one day later does not change its price |
| `Pricing.WeekStay` | ReservationSystem.java:78-82 | any seven consecutive nights cost exactly one of each weekday rate |
| `Pricing.WholeWeeks` | ReservationSystem.java:78-82 | n whole weeks cost n times the weekly total, from any starting day |
| `Pricing.AdvanceDiscount` | ReservationSystem.java:83-85 | an "AP" room costs exactly 0.95 times the same room and dates under any other type |
| `Pricing.AdvanceDiscountRooms` | ReservationSystem.java:97-104 | the 95% relation holds for whole multi-room bookings |
| `Pricing.RoomsCostAppend` | ReservationSystem.java:97-104 | the price of a room list is the price of its first part plus the price of the rest |
| `Pricing.WeekdayPricingExample` | ReservationSystem.java:74-87 | a 50-a-night room from Monday to Wednesday costs 100, and 95 as "AP" |
| `Lifecycle.MakeReservation` | ReservationSystem.java:118-131 | no reservation and an unchanged store iff some room is unavailable; otherwise the new reservation carries the given fields and is appended after all earlier entries |
| `Lifecycle.RequestCanOverbookItself` | ReservationSystem.java:120-125 | for any store and stay, when the scan counts all but one room of a type as taken, a request for two rooms of that type passes and books more rooms than the type has, because each room is checked against the old store |
| `Lifecycle.SingleRoomOverbooked` | ReservationSystem.java:120-125 | on an empty store, two rooms of a one-room type are both accepted |
| `Lifecycle.IsValidReservationNumber` | ReservationSystem.java:138-140 | true iff some active reservation has the number |
| `Lifecycle.FindReservation` | ReservationSystem.java:147-153 | finds nothing iff the number is not valid; otherwise finds the first reservation in store order with that number |
| `Lifecycle.FirstIndex` | ReservationSystem.java:179 | the position of the first copy of a reservation in the store |
| `Lifecycle.RemoveFirst` | ReservationSystem.java:179 | removing a reservation keeps what precedes and follows its first copy; a reservation not in the store changes nothing |
| `Lifecycle.RemoveFirstMultiset` | ReservationSystem.java:179 | removal takes away exactly one copy and keeps every other reservation |
| `Lifecycle.CancelReservation` | ReservationSystem.java:160-182 | a refund is due iff the type is not "AP" and check-in is at least two days after today; the refund is the total cost; the store loses exactly that reservation |
| `Lifecycle.CancelKeepsOthers` | ReservationSystem.java:160-182 | cancelling the reservation at position i leaves the store before and after i, in order |
| `Lifecycle.FindAfterCreate` | ReservationSystem.java:147-153 | after appending a reservation with an unused number, that number finds it and every other number finds what it found before |
| `Lifecycle.FindAfterRemove` | ReservationSystem.java:147-153 | removing a reservation leaves every lookup of another number as it was |
| `Lifecycle.FindAfterCancel` | ReservationSystem.java:160-182 | with unique numbers, a cancelled number is no longer valid and other lookups are unchanged |
| `Reports.InWindow` | ReservationSystem.java:284-285 | both window ends are inclusive (a stay from start to end is inside), and a stay inside is no longer than the window |
| `Reports.Window` | ReservationSystem.java:283-285 | the reservations whose whole stay lies in [start, end]: each kept as often as it occurs in the store, and no others |
| `Reports.WindowSnoc` | ReservationSystem.java:283-285 | appending a reservation to the store appends it to the window exactly when its stay lies inside |
| `Reports.WindowAppend` | ReservationSystem.java:283-285 | the window of two stores one after the other is their windows one after the other, so store order is kept |
| `Reports.OccupancyFigures` | ReservationSystem.java:281-294 | four figures, the fourth the sum of the three tier figures |
| `Reports.FiguresSeeOnlyWindow` | ReservationSystem.java:283-290 | the figures of a store equal those of its in-window reservations alone |
| `Reports.GuestsByTier` | ReservationSystem.java:286-289 | every room's guests are counted in exactly one tier |
| `Reports.FiguresTotalIsAllGuests` | ReservationSystem.java:281-294 | the total figure counts every guest of every in-window reservation |
| `Reports.Percent` | ReservationSystem.java:316-320 | 0 for a zero denominator; otherwise the rate times the denominator is 100 times the count |
| `Reports.MaximalOccupancy` | ReservationSystem.java:305-313 | four capacity figures, the fourth the sum of the three |
| `Reports.CapacitySeesOnlyWindow` | ReservationSystem.java:305-313 | the capacity figures of a store equal those of its in-window reservations alone |
| `Reports.CapacityByTier` | ReservationSystem.java:308-311 | every booked room's maximum occupancy is counted in exactly one tier |
| `Reports.WindowCapacityByTier` | ReservationSystem.java:305-313 | over the window, the three tier capacities add up to the maximum occupancy of every booked room |
| `Reports.MaximalTotalIsAllCapacity` | ReservationSystem.java:305-313 | the total capacity figure, the denominator of the total rate, is the maximum occupancy of every room of every in-window reservation |
| `Reports.OccupancyRates` | ReservationSystem.java:302-329 | each rate is 0 when its capacity is 0, and otherwise is the figure as a percentage of the capacity |
| `Reports.GuestsWithinCapacity` | ReservationSystem.java:305-313 | guests of a tier's rooms lie between 0 and those rooms' capacity when no room is over-full |
| `Reports.WindowGuestsWithinCapacity` | ReservationSystem.java:302-313 | over the window, each tier's figure lies between 0 and its capacity figure when no room is over-full |
| `Reports.PercentBounds` | ReservationSystem.java:319 | a share no larger than its non-negative whole is between 0 and 100 percent |
| `Reports.RatesArePercentages` | ReservationSystem.java:302-329 | when no room holds more guests than its type allows, every rate lies between 0 and 100 |
| `Reports.EmptyWindowCapacity` | ReservationSystem.java:305-313 | with nothing in the window, every tier's capacity figure is 0 |
| `Reports.EmptyWindowRates` | ReservationSystem.java:314-327 | with nothing in the window, all four rates are 0 rather than an error |
| `Reports.Billing` | ReservationSystem.java:337-358 | four income figures, the fourth the sum of the three tier incomes |
| `Reports.BillingSeesOnlyWindow` | ReservationSystem.java:339-341 | billing of a store equals billing of its in-window reservations alone |
| `Reports.IncomeByTier` | ReservationSystem.java:343-353 | every room's price is credited to exactly one billing tier |
| `Reports.BillingTotalIsStayCost` | ReservationSystem.java:337-358 | total income is the sum, over in-window reservations, of each one's multi-room price recomputed from its rooms, dates and type |
| `Csv.SplitFrom` | CSVEncoder.java:45-59 | reading on from a partly read field with any separator, the rest of the line yields one more field than it holds separators, and no field holds the separator when the partly read field holds none |
| `Csv.Split` | CSVEncoder.java:45-59 | a line has one more field than it has commas, and no field holds a comma |
| `Csv.JoinSplit` | CSVEncoder.java:45-59 | joining a line's fields with commas gives the line back |
| `Csv.SplitJoin` | CSVEncoder.java:45-59 | splitting the comma-join of comma-free fields gives the fields back |
| `Csv.SplitAtSeparator` | CSVEncoder.java:46-53 | splitting at a comma splits the two sides independently |
| `Csv.EmptyFields` | CSVEncoder.java:46-58 | a leading comma, a trailing comma and two adjacent commas each give an empty field |
| `Csv.SplitLine` | CSVEncoder.java:45-59 | the character loop that closes a field at each comma and the last field at the end yields exactly the split fields |
| `Csv.FirstShort` | CSVEncoder.java:66-68 | the first row narrower than the width, all rows before it wide enough |
| `Csv.ReadTable` | CSVEncoder.java:65-71 | succeeds iff the file is non-empty and no line has fewer commas than the first; then one row per line, each cut to the first line's width; otherwise the error names the empty file or the first narrow line |
| `Csv.TableRoundTrip` | CSVEncoder.java:65-71 | when every line has as many fields as the first, each row joins back to its line |
| `Csv.HeaderLine` | CSVEncoder.java:82-94 | the header line splits into the 13 column names (six reservation fields, three room type/occupancy pairs, total cost) and has no line break inside |
| `Csv.IntText` | CSVEncoder.java:111 | decimal text of an integer is non-empty and holds only digits and '-' |
| `Csv.IntTextRoundTrip` | CSVEncoder.java:111-116 | the decimal text of any integer reads back as that integer |
| `Csv.Padding` | CSVEncoder.java:118-120 | 2(3 − n) commas for n rooms, none when n is 3 or more |
| `Csv.PaddingIsBlankFields` | CSVEncoder.java:118-120 | the padding is two comma-terminated empty fields per unused room slot |
| `Csv.RecordBodyIsJoin` | CSVEncoder.java:111-121 | a record line is the comma-join of its six fields, the room fields, the empty pairs and the total cost |
| `Csv.RecordBody` | CSVEncoder.java:108-122 | a record line starts with the reference number and a comma and ends with the total cost's text |
| `Csv.RecordLayout` | CSVEncoder.java:108-122 | a record of 0 to 3 rooms whose name, type, dates, total and room fields hold no comma or line break splits into exactly the header's 13 columns; the reference number and the room count read back as the numbers written |
| `Csv.NameCommaShiftsColumns` | CSVEncoder.java:111-121 | the name is written unescaped, so a record whose guest name holds a comma splits into more than 13 fields |
| `Csv.SmithJohnRecord` | CSVEncoder.java:112 | a one-room record for guest "Smith, John" splits into more than 13 fields |
| `Csv.RecordsTerminated` | CSVEncoder.java:108-124 | the records are each reservation's record body followed by a line break, in store order |
| `Csv.WriteFile` | CSVEncoder.java:105-125 | a written file starts with the header and ends with a line break |
| `Csv.FileLines` | CSVEncoder.java:105-125 | cut at line breaks, a written file is the header line, then one record per reservation in store order |

## Left out

- The interactive command loop (HotelSystem.java) is not part of this model. It owns the reference-number counter, which is incremented even when a booking fails (HotelSystem.java:131). It also picks the reservation type by the letter "S" (HotelSystem.java:116). Both are the caller's concern; the engine takes `refNo` and `resType` as given.
- Persistence is not modelled: `initCSV`, the `updateReservationCSV` calls after create and cancel, `updateBillingCSV`, and file handles with their I/O exceptions. `showAllReservation` and all console output are left out as well. Cancellation returns the refund instead of printing it.
- `Csv.ReadTable` takes the file's lines. How `BufferedReader.readLine` cuts a file into lines is not modelled.
- `LocalDate` is replaced by day numbers, and `LocalDate.now()` by the `today` parameter. The text of dates, the text of a `double` total, and `RoomList.toTextOutput()` are not visible. They are the function-valued fields of `Csv.Formats`.
- IEEE `double` rounding in prices, rates and the 0.95 discount is not modelled; amounts are exact reals. `DecimalFormat` output is left out too.
- `Pricing.CalcRoomCost` requires check-in not after check-out. Otherwise the source loop never reaches check-out, and the model does not represent non-termination.
- `decodeHotelCSV`: only the tier rule is modelled (`Hotel.LoadTiers` files already decoded room types). Left out: `Integer.parseInt` of the row fields, and the row loop's range, which starts at row index 2, so the first two rows are never classified, and stops before the first row's column count (ReservationSystem.java:223).
- The hotel list's lookups by room type (rooms, rates, maximum occupancy) are the `Inventory` map. What the source does for an unknown room type is not visible, so operations that look one up require it to be known.
- `Reservation.getTotalOccupancy` and `Reservation.getMaximalOccupancy` are not visible. They are modelled as per-tier sums under the inventory tier rule, the rule under which the hotels are loaded: `Reports.GuestsIn` sums the guests and `Reports.CapacityIn` sums each room type's maximum occupancy. `Reservation.equals` is modelled as value equality.
- `findReservation` throws when nothing matches; the model returns `None`. `csvRead` throws on an empty file or a line narrower than the first; the model returns `Err(EmptyFile)` or `Err(ShortLine(row))`.
- Reports.RatesArePercentages: holds only when no room holds more guests than its type allows or fewer than none. The source does not enforce this when a reservation is made.
- Csv.RecordLayout: covers records of 0 to 3 rooms. The room list's text must be two comma-terminated fields per room, because `RoomList.toTextOutput()` is not visible. The name, type, dates, total and room fields must hold no comma or line break. The source writes the guest name unescaped (CSVEncoder.java:112), and the name is any line the guest types (HotelSystem.java:85), so a name with a comma breaks the layout. `Csv.NameCommaShiftsColumns` shows this.
- Reports.Billing: requires every in-window reservation to have known room types and check-in not after check-out. The source prices each room with the same day-by-day loop, which never ends otherwise.
- Java's 32-bit `int` is not modelled: counts, room numbers, occupancies, reference numbers and the report sums are unbounded integers. The source's `taken` (ReservationSystem.java:41,56), `figures` (:282-292), `maxOcc` and `sum` (:304-313, :322) wrap around on overflow. Occupancy is unchecked input (HotelSystem.java:101), so two in-window 3-star rooms with occupancy 2147483647 make the source's `figures[0]` wrap to -2, while `Reports.OccupancyFigures` gives 4294967294.

=== FILE: availability.dfy ===
/**
 * Availability of one more room of a type over a query stay. The scan counts
 * the rooms of that type in each reservation it does not judge disjoint from
 * the query, and stops altogether at the first reservation it does judge
 * disjoint: reservations after that one are never looked at.
 */
module Availability {
  import opened Calendar
  import opened Hotel
  import opened Booking

  /**
   * The engine's four-clause test that a query stay [qIn, qOut] does not
   * conflict with a booked stay [rIn, rOut]. It never clears a query whose
   * nights overlap the booked nights.
   */
  predicate JudgedDisjoint(qIn: Day, qOut: Day, rIn: Day, rOut: Day): (d: bool)
    ensures d ==> qOut <= rIn || rOut <= qIn
  {
    (qIn < rIn && qOut < rIn) ||
    (qIn < rIn && qOut == rIn) ||
    (qIn > rOut && qOut > rOut) ||
    (qIn == rOut && qOut > rOut)
  }

  /** The query stay is judged disjoint from reservation `r`. */
  predicate Clears(r: Reservation, qIn: Day, qOut: Day)
  {
    JudgedDisjoint(qIn, qOut, r.checkIn, r.checkOut)
  }

  /** Number of rooms of type `t` in `rooms`. */
  function UnitsOf(rooms: seq<Room>, t: string): nat
  {
    if rooms == [] then 0
    else (if rooms[0].roomType == t then 1 else 0) + UnitsOf(rooms[1..], t)
  }

  /** Rooms of type `t` in two room lists are those of each list added up. */
  lemma {:induction false} UnitsOfAppend(a: seq<Room>, b: seq<Room>, t: string)
    ensures UnitsOf(a + b, t) == UnitsOf(a, t) + UnitsOf(b, t)
  {
    if a == [] {
      assert a + b == b;
    } else {
      UnitsOfAppend(a[1..], b, t);
      assert (a + b)[1..] == a[1..] + b;
    }
  }

  /**
   * Rooms of type `t` taken, as the engine's scan counts them: never more
   * than the rooms of that type in the whole store.
   */
  function Taken(rs: seq<Reservation>, t: string, qIn: Day, qOut: Day): (n: nat)
    ensures n <= UnitsIn(rs, t)
  {
    if rs == [] then 0
    else if Clears(rs[0], qIn, qOut) then 0
    else UnitsOf(rs[0].rooms, t) + Taken(rs[1..], t, qIn, qOut)
  }

  /**
   * One more room of type `t` can be booked for [qIn, qOut]. A type without
   * rooms never is; a type whose conflicting bookings leave a room free
   * always is.
   */
  predicate Available(inv: Inventory, rs: seq<Reservation>, t: string, qIn: Day, qOut: Day): (ok: bool)
    requires t in inv
    ensures ok ==> inv[t].units > 0
    ensures ConflictUnits(rs, t, qIn, qOut) < inv[t].units ==> ok
  {
    ScanUnderCounts(rs, t, qIn, qOut);
    !(Taken(rs, t, qIn, qOut) >= inv[t].units)
  }

  /** Position of the first reservation judged disjoint from the query, or |rs|. */
  function FirstCleared(rs: seq<Reservation>, qIn: Day, qOut: Day): (k: nat)
    ensures k <= |rs|
    ensures forall i :: 0 <= i < k ==> !Clears(rs[i], qIn, qOut)
    ensures k < |rs| ==> Clears(rs[k], qIn, qOut)
  {
    if rs == [] then 0
    else if Clears(rs[0], qIn, qOut) then 0
    else 1 + FirstCleared(rs[1..], qIn, qOut)
  }

  /** Rooms of type `t` in all of `rs`, whatever their dates. */
  function UnitsIn(rs: seq<Reservation>, t: string): nat
  {
    if rs == [] then 0 else UnitsOf(rs[0].rooms, t) + UnitsIn(rs[1..], t)
  }

  /** Rooms of type `t` in every reservation not judged disjoint from the query. */
  function ConflictUnits(rs: seq<Reservation>, t: string, qIn: Day, qOut: Day): nat
  {
    if rs == [] then 0
    else
      var here := if Clears(rs[0], qIn, qOut) then 0 else UnitsOf(rs[0].rooms, t);
      here + ConflictUnits(rs[1..], t, qIn, qOut)
  }

  /** The scan counts exactly the rooms of the reservations before the first cleared one. */
  lemma {:induction false} TakenCountsPrefix(rs: seq<Reservation>, t: string, qIn: Day, qOut: Day)
    ensures Taken(rs, t, qIn, qOut) == UnitsIn(rs[..FirstCleared(rs, qIn, qOut)], t)
  {
    if rs != [] && !Clears(rs[0], qIn, qOut) {
      var k := FirstCleared(rs, qIn, qOut);
      TakenCountsPrefix(rs[1..], t, qIn, qOut);
      assert rs[..k][0] == rs[0];
      assert rs[..k][1..] == rs[1..][..k - 1];
    }
  }

  /**
   * Availability fails exactly when the rooms of type `t` booked by the
   * reservations ahead of the first cleared one fill the type's capacity.
   */
  lemma AvailableIff(inv: Inventory, rs: seq<Reservation>, t: string, qIn: Day, qOut: Day)
    requires t in inv
    ensures !Available(inv, rs, t, qIn, qOut) <==>
      UnitsIn(rs[..FirstCleared(rs, qIn, qOut)], t) >= inv[t].units
  {
    TakenCountsPrefix(rs, t, qIn, qOut);
  }

  /** With no reservations, a type is available exactly when it has rooms. */
  lemma AvailableOnEmptyStore(inv: Inventory, t: string, qIn: Day, qOut: Day)
    requires t in inv
    ensures Available(inv, [], t, qIn, qOut) <==> inv[t].units > 0
  {
  }

  /**
   * A query that ends on a booking's check-in day, or starts on its check-out
   * day, is judged disjoint from it: touching stays do not conflict.
   */
  lemma TouchingStaysClear(qIn: Day, qOut: Day, rIn: Day, rOut: Day)
    ensures qIn < rIn && qOut == rIn ==> JudgedDisjoint(qIn, qOut, rIn, rOut)
    ensures qIn == rOut && qOut > rOut ==> JudgedDisjoint(qIn, qOut, rIn, rOut)
  {
  }

  /**
   * For a query of at least one night the four clauses are the half-open
   * interval test: the stays are judged disjoint exactly when one ends on or
   * before the day the other begins.
   */
  lemma JudgedDisjointIsHalfOpen(qIn: Day, qOut: Day, rIn: Day, rOut: Day)
    requires qIn < qOut
    ensures JudgedDisjoint(qIn, qOut, rIn, rOut) <==> qOut <= rIn || rOut <= qIn
  {
  }

  /**
   * The early stop can only under-count: the scan never counts more than the
   * rooms of all conflicting reservations, and counts them all when no
   * reservation is judged disjoint.
   */
  lemma {:induction false} ScanUnderCounts(rs: seq<Reservation>, t: string, qIn: Day, qOut: Day)
    ensures Taken(rs, t, qIn, qOut) <= ConflictUnits(rs, t, qIn, qOut)
    ensures FirstCleared(rs, qIn, qOut) == |rs| ==> Taken(rs, t, qIn, qOut) == ConflictUnits(rs, t, qIn, qOut)
  {
    if rs != [] {
      ScanUnderCounts(rs[1..], t, qIn, qOut);
    }
  }

  /**
   * A single-room type stays bookable for days 1 to 4 although a reservation
   * for days 0 to 5 holds its only room, because a reservation for days 10 to
   * 12 comes first in the store and stops the scan.
   */
  lemma ScanMissesLaterConflict()
    ensures var inv := map["Single" := RoomType("Single", 1, 1, [80, 80, 80, 80, 80, 90, 90])];
      var later := Reservation(0, "Ann", "S", 10, 12, 1, [Room("Single", 1)], 160.0);
      var overlapping := Reservation(1, "Bob", "S", 0, 5, 1, [Room("Single", 1)], 400.0);
      var rs := [later, overlapping];
      Available(inv, rs, "Single", 1, 4) && ConflictUnits(rs, "Single", 1, 4) >= inv["Single"].units
  {
    var later := Reservation(0, "Ann", "S", 10, 12, 1, [Room("Single", 1)], 160.0);
    var overlapping := Reservation(1, "Bob", "S", 0, 5, 1, [Room("Single", 1)], 400.0);
    var rs := [later, overlapping];
    assert rs[1..] == [overlapping];
    assert UnitsOf(overlapping.rooms, "Single") == 1;
  }

  /**
   * While no reservation is judged disjoint from the query, the check is the
   * intended one: a room is available exactly when the conflicting bookings of
   * its type leave capacity free.
   */
  lemma AvailableWithoutEarlyStop(inv: Inventory, rs: seq<Reservation>, t: string, qIn: Day, qOut: Day)
    requires t in inv
    requires forall i :: 0 <= i < |rs| ==> !Clears(rs[i], qIn, qOut)
    ensures Available(inv, rs, t, qIn, qOut) <==> ConflictUnits(rs, t, qIn, qOut) < inv[t].units
  {
    ScanUnderCounts(rs, t, qIn, qOut);
  }
}

=== FILE: booking.dfy ===
/**
 * Reservation records and the reservation store. The store is the ordered
 * list of active reservations, in creation order; it is passed explicitly to
 * every operation and returned by the ones that change it.
 */
module Booking {
  import opened Calendar
  import opened Hotel

  /** One booked room: its room type and the number of guests in it. */
  datatype Room = Room(roomType: string, occupancy: int)

  /**
   * A reservation. `resType` is "AP" for an advance (discounted,
   * non-refundable) reservation; any other text is a standard one.
   */
  datatype Reservation = Reservation(
    refNo: int,
    name: string,
    resType: string,
    checkIn: Day,
    checkOut: Day,
    numOfRoom: int,
    rooms: seq<Room>,
    totalCost: real)

  /** The reservation type that gets the discount and no refund. */
  const AdvancePurchase: string := "AP"

  /** Every room in `rooms` is of a type the inventory knows. */
  predicate KnownRooms(inv: Inventory, rooms: seq<Room>)
  {
    forall i :: 0 <= i < |rooms| ==> rooms[i].roomType in inv
  }

  /** A reservation whose stay can be priced: known room types, dates in order. */
  predicate Priceable(inv: Inventory, r: Reservation)
  {
    KnownRooms(inv, r.rooms) && r.checkIn <= r.checkOut
  }

  /** No two active reservations share a reference number. */
  predicate UniqueRefNos(rs: seq<Reservation>)
  {
    forall i, j :: 0 <= i < j < |rs| ==> rs[i].refNo != rs[j].refNo
  }
}

=== FILE: calendar.dfy ===
/**
 * Calendar dates as whole days counted from 1970-01-01, which was a Thursday.
 * Weekdays are numbered Monday = 0 through Sunday = 6, the order of a room
 * type's rate table.
 */
module Calendar {

  /** A date, as the number of days since 1970-01-01 (negative before it). */
  type Day = int

  /** Index of the weekday of `d` in a Monday-first week. */
  function Weekday(d: Day): (w: nat)
    ensures w < 7
  {
    (d + 3) % 7
  }

  /** Moving `k` days forward moves the weekday index `k` places round the week. */
  lemma WeekdayShift(d: Day, k: int)
    ensures Weekday(d + k) == (Weekday(d) + k) % 7
  {
  }

  /** The epoch is a Thursday, and 2024-03-04 (day 19786) is a Monday. */
  lemma KnownWeekdays()
    ensures Weekday(0) == 3
    ensures Weekday(19786) == 0
  {
  }
}

=== FILE: common.dfy ===
/** Failure-carrying results and sequence facts shared by the engine and the file codec. */
module Common {

  /** A value that may be missing (the source returns `null` or throws). */
  datatype Option<T> = None | Some(value: T)

  /** Either a value or the reason there is none. */
  datatype Result<T, E> = Ok(value: T) | Err(error: E)

  /** A non-empty sequence, alone or after another, is its front followed by its last element. */
  lemma SplitLast<T>(a: seq<T>, b: seq<T>)
    requires b != []
    ensures b == b[..|b| - 1] + [b[|b| - 1]]
    ensures a + b == (a + b[..|b| - 1]) + [b[|b| - 1]]
  {
    assert b == b[..|b| - 1] + [b[|b| - 1]];
  }
}

=== FILE: csv.dfy ===
/**
 * The comma-separated file format of the reservation and hotel files. A line
 * is split at every comma, with no quoting, keeping empty fields; a file is
 * read into a rectangle as wide as its first line. A reservation file is a
 * fixed 13-column header followed by one record line per reservation, with
 * unused room slots padded by empty (room type, occupancy) pairs.
 */
module Csv {
  import opened Common
  import opened Calendar
  import opened Booking

  /** Number of occurrences of `c` in `s`. */
  function Count(s: string, c: char): nat
  {
    if s == [] then 0 else (if s[0] == c then 1 else 0) + Count(s[1..], c)
  }

  /**
   * The fields of `s` cut at every `sep`, the first one continuing the
   * partial field `field` already read.
   */
  function SplitFrom(s: string, sep: char, field: string): (fs: seq<string>)
    ensures |fs| == Count(s, sep) + 1
    ensures sep !in field ==> forall i :: 0 <= i < |fs| ==> sep !in fs[i]
  {
    if s == [] then [field]
    else if s[0] == sep then [field] + SplitFrom(s[1..], sep, [])
    else SplitFrom(s[1..], sep, field + [s[0]])
  }

  /** The fields of `s` cut at every `sep`. */
  function SplitOn(s: string, sep: char): seq<string>
  {
    SplitFrom(s, sep, [])
  }

  /**
   * The fields of a line: cut at every comma, empty fields kept. A line has
   * one more field than it has commas, and no field holds a comma.
   */
  function Split(line: string): (fs: seq<string>)
    ensures |fs| == Count(line, ',') + 1
    ensures forall i :: 0 <= i < |fs| ==> ',' !in fs[i]
  {
    SplitOn(line, ',')
  }

  /** The fields written one after another with `sep` between neighbours. */
  function JoinOn(fs: seq<string>, sep: char): string
  {
    if |fs| == 0 then ""
    else if |fs| == 1 then fs[0]
    else fs[0] + [sep] + JoinOn(fs[1..], sep)
  }

  /** Joining the fields of a partly read line gives back the partial field and the rest. */
  lemma {:induction false} JoinSplitFrom(s: string, sep: char, field: string)
    ensures JoinOn(SplitFrom(s, sep, field), sep) == field + s
  {
    if s == [] {
    } else if s[0] == sep {
      JoinSplitFrom(s[1..], sep, []);
      var rest := SplitFrom(s[1..], sep, []);
      assert ([field] + rest)[1..] == rest;
      assert s == [sep] + s[1..];
    } else {
      JoinSplitFrom(s[1..], sep, field + [s[0]]);
      assert s == [s[0]] + s[1..];
    }
  }

  /** Joining the fields of a line with commas gives the line back. */
  lemma JoinSplit(line: string)
    ensures JoinOn(Split(line), ',') == line
  {
    JoinSplitFrom(line, ',', []);
  }

  /** Reading over a stretch without separators only extends the partial field. */
  lemma {:induction false} SplitPlain(f: string, tail: string, sep: char, field: string)
    requires sep !in f
    ensures SplitFrom(f + tail, sep, field) == SplitFrom(tail, sep, field + f)
  {
    if f != [] {
      assert (f + tail)[0] == f[0];
      assert (f + tail)[1..] == f[1..] + tail;
      SplitPlain(f[1..], tail, sep, field + [f[0]]);
      assert field + [f[0]] + f[1..] == field + f;
    } else {
      assert f + tail == tail;
      assert field + f == field;
    }
  }

  /** Splitting the join of fields that hold no separator gives the fields back. */
  lemma {:induction false} SplitJoinOn(fs: seq<string>, sep: char)
    requires |fs| >= 1
    requires forall i :: 0 <= i < |fs| ==> sep !in fs[i]
    ensures SplitOn(JoinOn(fs, sep), sep) == fs
  {
    if |fs| == 1 {
      SplitPlain(fs[0], [], sep, []);
      assert fs[0] + [] == fs[0];
      assert [] + fs[0] == fs[0];
      assert JoinOn(fs, sep) == fs[0];
      assert SplitFrom([], sep, fs[0]) == [fs[0]];
    } else {
      var rest := JoinOn(fs[1..], sep);
      SplitPlain(fs[0], [sep] + rest, sep, []);
      assert fs[0] + [sep] + rest == fs[0] + ([sep] + rest);
      assert ([sep] + rest)[1..] == rest;
      SplitJoinOn(fs[1..], sep);
      assert [] + fs[0] == fs[0];
      assert fs == [fs[0]] + fs[1..];
    }
  }

  /** Splitting the comma-join of at least one comma-free field gives the fields back. */
  lemma SplitJoin(fs: seq<string>)
    requires |fs| >= 1
    requires forall i :: 0 <= i < |fs| ==> ',' !in fs[i]
    ensures Split(JoinOn(fs, ',')) == fs
  {
    SplitJoinOn(fs, ',');
  }

  /** Splitting at a separator splits the two sides independently. */
  lemma {:induction false} SplitAtSeparator(a: string, b: string, sep: char, field: string)
    ensures SplitFrom(a + [sep] + b, sep, field) == SplitFrom(a, sep, field) + SplitFrom(b, sep, [])
  {
    if a == [] {
      assert a + [sep] + b == [sep] + b;
      assert ([sep] + b)[1..] == b;
    } else {
      assert (a + [sep] + b)[0] == a[0];
      assert (a + [sep] + b)[1..] == a[1..] + [sep] + b;
      if a[0] == sep {
        SplitAtSeparator(a[1..], b, sep, []);
      } else {
        SplitAtSeparator(a[1..], b, sep, field + [a[0]]);
      }
    }
  }

  /**
   * A leading comma, a trailing comma and two adjacent commas each give an
   * empty field.
   */
  lemma EmptyFields(a: string, b: string)
    ensures Split("," + b) == [""] + Split(b)
    ensures Split(a + ",") == Split(a) + [""]
    ensures Split(a + ",," + b) == Split(a) + [""] + Split(b)
  {
    SplitAtSeparator([], b, ',', []);
    assert [] + [','] + b == "," + b;
    SplitAtSeparator(a, [], ',', []);
    assert a + [','] + [] == a + ",";
    SplitAtSeparator(a, "," + b, ',', []);
    assert a + [','] + ("," + b) == a + ",," + b;
  }

  /**
   * Reads a line one character at a time, closing a field at each comma and
   * closing the last field at the end of the line.
   */
  method SplitLine(line: string) returns (fields: seq<string>)
    ensures fields == Split(line)
  {
    fields := [];
    var sb := "";
    var i := 0;
    while i < |line|
      invariant 0 <= i <= |line|
      invariant fields + SplitFrom(line[i..], ',', sb) == Split(line)
    {
      var c := line[i];
      assert line[i..][0] == c && line[i..][1..] == line[i + 1..];
      if c == ',' {
        if sb == [] {
          fields := fields + [""];
        } else {
          fields := fields + [sb];
          sb := "";
        }
      } else {
        sb := sb + [c];
      }
      i := i + 1;
    }
    fields := fields + [sb];
  }

  /** Why a file cannot be read into a rectangle. */
  datatype TableError =
    | EmptyFile           // there is no first line to take the width from
    | ShortLine(row: nat) // this line has fewer fields than the first

  /** Index of the first row with fewer than `width` fields, or the number of rows. */
  function FirstShort(rows: seq<seq<string>>, width: nat): (k: nat)
    ensures k <= |rows|
    ensures forall i :: 0 <= i < k ==> |rows[i]| >= width
    ensures k < |rows| ==> |rows[k]| < width
  {
    if rows == [] then 0
    else if |rows[0]| < width then 0
    else 1 + FirstShort(rows[1..], width)
  }

  /**
   * Reads the lines of a file into rows of fields, every row cut to the width
   * of the first line. An empty file, or a line narrower than the first,
   * cannot be read.
   */
  function ReadTable(lines: seq<string>): (r: Result<seq<seq<string>>, TableError>)
    ensures r.Ok? <==> |lines| > 0 && forall i :: 0 <= i < |lines| ==> Count(lines[i], ',') >= Count(lines[0], ',')
    ensures r.Ok? ==>
      (|r.value| == |lines| &&
       forall i :: 0 <= i < |lines| ==> r.value[i] == Split(lines[i])[..Count(lines[0], ',') + 1])
    ensures r.Err? && |lines| > 0 ==>
      (r.error.ShortLine? && r.error.row < |lines| &&
       Count(lines[r.error.row], ',') < Count(lines[0], ',') &&
       forall i :: 0 <= i < r.error.row ==> Count(lines[i], ',') >= Count(lines[0], ','))
    ensures |lines| == 0 ==> r == Err(EmptyFile)
  {
    if |lines| == 0 then Err(EmptyFile)
    else
      var rows := seq(|lines|, i requires 0 <= i < |lines| => Split(lines[i]));
      var width := |rows[0]|;
      assert forall i :: 0 <= i < |lines| ==> |rows[i]| == Count(lines[i], ',') + 1;
      var k := FirstShort(rows, width);
      if k < |rows| then Err(ShortLine(k))
      else Ok(seq(|lines|, i requires 0 <= i < |lines| => rows[i][..width]))
  }

  /**
   * A file whose lines all have as many fields as the first is read without
   * loss: each row joins back to its line.
   */
  lemma TableRoundTrip(lines: seq<string>)
    requires |lines| > 0
    requires forall i :: 0 <= i < |lines| ==> Count(lines[i], ',') == Count(lines[0], ',')
    ensures ReadTable(lines).Ok?
    ensures forall i :: 0 <= i < |lines| ==> JoinOn(ReadTable(lines).value[i], ',') == lines[i]
  {
    var table := ReadTable(lines).value;
    forall i | 0 <= i < |lines|
      ensures JoinOn(table[i], ',') == lines[i]
    {
      assert table[i] == Split(lines[i]);
      JoinSplit(lines[i]);
    }
  }

  /** The fields written each followed by `sep`. */
  function TerminatedOn(fs: seq<string>, sep: char): string
  {
    if fs == [] then "" else fs[0] + [sep] + TerminatedOn(fs[1..], sep)
  }

  /** Terminating two lists of fields one after the other terminates their concatenation. */
  lemma {:induction false} TerminatedAppend(a: seq<string>, b: seq<string>, sep: char)
    ensures TerminatedOn(a + b, sep) == TerminatedOn(a, sep) + TerminatedOn(b, sep)
  {
    if a == [] {
      assert a + b == b;
    } else {
      TerminatedAppend(a[1..], b, sep);
      assert (a + b)[1..] == a[1..] + b;
    }
  }

  /** Terminated fields followed by one more field are the join of all of them. */
  lemma {:induction false} TerminatedThenLast(fs: seq<string>, last: string, sep: char)
    ensures TerminatedOn(fs, sep) + last == JoinOn(fs + [last], sep)
  {
    if fs != [] {
      TerminatedThenLast(fs[1..], last, sep);
      assert (fs + [last])[1..] == fs[1..] + [last];
    }
  }

  /** Splitting lines that are each terminated by `sep` gives the lines and a final empty one. */
  lemma SplitTerminated(ls: seq<string>, sep: char)
    requires forall i :: 0 <= i < |ls| ==> sep !in ls[i]
    ensures SplitOn(TerminatedOn(ls, sep), sep) == ls + [""]
  {
    TerminatedThenLast(ls, "", sep);
    assert TerminatedOn(ls, sep) + "" == TerminatedOn(ls, sep);
    SplitJoinOn(ls + [""], sep);
  }

  /** The column names of a reservation file: six reservation fields, three room slots, the total. */
  const HeaderColumns: seq<string> := [
    "Reservation number", "Reservation name", "Reservation type",
    "Check-in date", "Check-out date", "Number of rooms",
    "Room type", "Occupancy", "Room type", "Occupancy", "Room type", "Occupancy",
    "Total cost"]

  /**
   * The header line without its line break: the first twelve names each
   * followed by a comma, then "Total cost". It is one line whose
   * comma-separated fields are the 13 column names.
   */
  function HeaderLine(): (h: string)
    ensures '\n' !in h
    ensures Split(h) == HeaderColumns
  {
    TerminatedThenLast(HeaderColumns[..12], HeaderColumns[12], ',');
    assert HeaderColumns[..12] + [HeaderColumns[12]] == HeaderColumns;
    HeaderColumnsPlain();
    JoinHasNoLineBreak(HeaderColumns);
    SplitJoin(HeaderColumns);
    TerminatedOn(HeaderColumns[..12], ',') + HeaderColumns[12]
  }

  /** The header line every reservation and billing file starts with. */
  function Header(): string
  {
    HeaderLine() + "\n"
  }

  /** No column name holds a comma or a line break. */
  lemma HeaderColumnsPlain()
    ensures forall i :: 0 <= i < |HeaderColumns| ==> Plain(HeaderColumns[i])
  {
    forall i | 0 <= i < |HeaderColumns|
      ensures Plain(HeaderColumns[i])
    {
      var c := HeaderColumns[i];
      assert forall j :: 0 <= j < |c| ==> 'A' <= c[j] <= 'z' || c[j] == ' ' || c[j] == '-';
    }
  }

  /** Joining plain fields with commas gives text without a line break. */
  lemma {:induction false} JoinHasNoLineBreak(fs: seq<string>)
    requires forall i :: 0 <= i < |fs| ==> Plain(fs[i])
    ensures forall i :: 0 <= i < |JoinOn(fs, ',')| ==> JoinOn(fs, ',')[i] != '\n'
  {
    if |fs| > 1 {
      JoinHasNoLineBreak(fs[1..]);
    }
  }

  /** The decimal digit for `d`. */
  function Digit(d: int): char
    requires 0 <= d < 10
  {
    "0123456789"[d]
  }

  /** The value of a decimal digit character. */
  function DigitValue(c: char): int
  {
    c as int - '0' as int
  }

  /** Decimal text of a natural number, most significant digit first. */
  function NatText(n: nat): (s: string)
    ensures |s| >= 1
    ensures forall i :: 0 <= i < |s| ==> '0' <= s[i] <= '9'
  {
    if n < 10 then [Digit(n)] else NatText(n / 10) + [Digit(n % 10)]
  }

  /** Decimal text of an integer, with a leading '-' when negative (Java's `String.valueOf(int)`). */
  function IntText(n: int): (s: string)
    ensures |s| >= 1
    ensures forall i :: 0 <= i < |s| ==> s[i] == '-' || '0' <= s[i] <= '9'
  {
    if n < 0 then "-" + NatText(-n) else NatText(n)
  }

  /** The number a string of decimal digits denotes. */
  function NatValue(s: string): int
  {
    if s == [] then 0 else 10 * NatValue(s[..|s| - 1]) + DigitValue(s[|s| - 1])
  }

  /** The number a decimal text with an optional leading '-' denotes. */
  function IntValue(s: string): int
  {
    if |s| > 0 && s[0] == '-' then -NatValue(s[1..]) else NatValue(s)
  }

  /** Reading back the decimal text of a number gives the number. */
  lemma {:induction false} NatTextRoundTrip(n: nat)
    ensures NatValue(NatText(n)) == n
  {
    if n >= 10 {
      NatTextRoundTrip(n / 10);
      var s := NatText(n / 10) + [Digit(n % 10)];
      assert s[..|s| - 1] == NatText(n / 10);
    } else {
      assert [Digit(n)][..0] == [];
    }
  }

  /** Reading back the text of any integer gives the integer. */
  lemma IntTextRoundTrip(n: int)
    ensures IntValue(IntText(n)) == n
  {
    if n < 0 {
      NatTextRoundTrip(-n);
      assert ("-" + NatText(-n))[1..] == NatText(-n);
    } else {
      NatTextRoundTrip(n);
    }
  }

  /** `k` empty (room type, occupancy) pairs, for the room slots a reservation leaves unused. */
  function Padding(k: int): (p: string)
    ensures |p| == if k <= 0 then 0 else 2 * k
    ensures forall i :: 0 <= i < |p| ==> p[i] == ','
    decreases k
  {
    if k <= 0 then "" else ",," + Padding(k - 1)
  }

  /** `n` empty fields. */
  function Blanks(n: nat): seq<string>
  {
    seq(n, _ => "")
  }

  /** Padding is the terminated form of two empty fields per unused slot. */
  lemma {:induction false} PaddingIsBlankFields(k: nat)
    ensures Padding(k) == TerminatedOn(Blanks(2 * k), ',')
  {
    if k > 0 {
      PaddingIsBlankFields(k - 1);
      assert Blanks(2 * k) == ["", ""] + Blanks(2 * (k - 1));
      TerminatedAppend(["", ""], Blanks(2 * (k - 1)), ',');
      assert TerminatedOn(["", ""], ',') == ",,";
    }
  }

  /**
   * How the parts of a record that are not plain numbers are turned into
   * text: dates, the total cost, and a reservation's room list.
   */
  datatype Formats = Formats(date: Day -> string, cost: real -> string, rooms: seq<Room> -> string)

  /** The six reservation fields of a record: number, name, type, dates, room count. */
  function HeadFields(r: Reservation, fmt: Formats): seq<string>
  {
    [IntText(r.refNo), r.name, r.resType, fmt.date(r.checkIn), fmt.date(r.checkOut), IntText(r.numOfRoom)]
  }

  /**
   * A record line without its line break: the six reservation fields each
   * followed by a comma, the room list's text, the padding pairs, the total.
   * It starts with the reference number and a comma and ends with the total.
   */
  function RecordBody(r: Reservation, fmt: Formats): (b: string)
    ensures IntText(r.refNo) + "," <= b
    ensures var cost := fmt.cost(r.totalCost); |cost| <= |b| && b[|b| - |cost|..] == cost
  {
    TerminatedOn(HeadFields(r, fmt), ',') + fmt.rooms(r.rooms) + Padding(3 - r.numOfRoom) + fmt.cost(r.totalCost)
  }

  /** The line written for one reservation. */
  function RecordLine(r: Reservation, fmt: Formats): string
  {
    RecordBody(r, fmt) + "\n"
  }

  /** The record lines of `rs`, in store order. */
  function Records(rs: seq<Reservation>, fmt: Formats): string
  {
    if rs == [] then "" else Records(rs[..|rs| - 1], fmt) + RecordLine(rs[|rs| - 1], fmt)
  }

  /**
   * A reservation file: the header, then one record line per reservation in
   * store order. It starts with the header and ends with a line break.
   */
  function WriteFile(rs: seq<Reservation>, fmt: Formats): (f: string)
    ensures Header() <= f
    ensures |f| > 0 && f[|f| - 1] == '\n'
  {
    Header() + Records(rs, fmt)
  }

  /** Text that holds neither a comma nor a line break. */
  predicate Plain(s: string)
  {
    forall i :: 0 <= i < |s| ==> s[i] != ',' && s[i] != '\n'
  }

  /**
   * A record of up to three rooms, whose room list is written as its
   * (room type, occupancy) fields each followed by a comma, splits into the
   * header's 13 columns: the six reservation fields, the room fields, an
   * empty pair for each unused slot, and the total cost. The reference number
   * and the room count read back as the numbers written.
   */
  lemma RecordLayout(r: Reservation, fmt: Formats, roomFields: seq<string>)
    requires 0 <= r.numOfRoom <= 3
    requires |roomFields| == 2 * r.numOfRoom
    requires fmt.rooms(r.rooms) == TerminatedOn(roomFields, ',')
    requires forall i :: 0 <= i < |roomFields| ==> ',' !in roomFields[i]
    requires Plain(r.name) && Plain(r.resType)
    requires Plain(fmt.date(r.checkIn)) && Plain(fmt.date(r.checkOut)) && Plain(fmt.cost(r.totalCost))
    ensures var fields := Split(RecordBody(r, fmt));
      |fields| == 13 &&
      fields == HeadFields(r, fmt) + roomFields + Blanks(6 - 2 * r.numOfRoom) + [fmt.cost(r.totalCost)] &&
      IntValue(fields[0]) == r.refNo && IntValue(fields[5]) == r.numOfRoom
  {
    var all := RecordFields(r, fmt, roomFields);
    RecordBodyIsJoin(r, fmt, roomFields);
    RecordFieldsCommaFree(r, fmt, roomFields);
    SplitJoin(all);
    IntTextRoundTrip(r.refNo);
    IntTextRoundTrip(r.numOfRoom);
  }

  /** Commas in two texts one after the other are those of each text added up. */
  lemma {:induction false} CountAppend(a: string, b: string, c: char)
    ensures Count(a + b, c) == Count(a, c) + Count(b, c)
  {
    if a == [] {
      assert a + b == b;
    } else {
      CountAppend(a[1..], b, c);
      assert (a + b)[1..] == a[1..] + b;
    }
  }

  /** Text holding `c` counts it at least once. */
  lemma {:induction false} CountFound(s: string, c: char)
    requires c in s
    ensures Count(s, c) >= 1
  {
    if s[0] != c {
      CountFound(s[1..], c);
    }
  }

  /** A join of fields holds a separator between neighbours, besides those inside field `k`. */
  lemma {:induction false} CountJoin(fs: seq<string>, sep: char, k: nat)
    requires k < |fs|
    ensures Count(JoinOn(fs, sep), sep) >= |fs| - 1 + Count(fs[k], sep)
  {
    if |fs| > 1 {
      var rest := JoinOn(fs[1..], sep);
      CountAppend(fs[0] + [sep], rest, sep);
      CountAppend(fs[0], [sep], sep);
      if k == 0 {
        CountJoin(fs[1..], sep, 0);
      } else {
        CountJoin(fs[1..], sep, k - 1);
      }
    }
  }

  /**
   * The record format has no quoting: a guest name holding a comma pushes the
   * record past the header's 13 columns, so the columns after the name no
   * longer line up with the header.
   */
  lemma NameCommaShiftsColumns(r: Reservation, fmt: Formats, roomFields: seq<string>)
    requires 0 <= r.numOfRoom <= 3
    requires |roomFields| == 2 * r.numOfRoom
    requires fmt.rooms(r.rooms) == TerminatedOn(roomFields, ',')
    requires ',' in r.name
    ensures |Split(RecordBody(r, fmt))| > 13
  {
    var all := RecordFields(r, fmt, roomFields);
    RecordBodyIsJoin(r, fmt, roomFields);
    assert |all| == 13 && all[1] == r.name;
    CountFound(r.name, ',');
    CountJoin(all, ',', 1);
  }

  /** One room booked by "Smith, John" is written as more than 13 fields. */
  lemma SmithJohnRecord()
    ensures var r := Reservation(7, "Smith, John", "S", 19786, 19788, 1, [Room("Single", 1)], 100.0);
      var fmt := Formats(_ => "2024-03-04", _ => "100.0", _ => TerminatedOn(["Single", "1"], ','));
      |Split(RecordBody(r, fmt))| > 13
  {
    var r := Reservation(7, "Smith, John", "S", 19786, 19788, 1, [Room("Single", 1)], 100.0);
    var fmt := Formats(_ => "2024-03-04", _ => "100.0", _ => TerminatedOn(["Single", "1"], ','));
    assert r.name[5] == ',';
    NameCommaShiftsColumns(r, fmt, ["Single", "1"]);
  }

  /** The 13 fields a record of up to three rooms is meant to carry. */
  function RecordFields(r: Reservation, fmt: Formats, roomFields: seq<string>): seq<string>
    requires 0 <= r.numOfRoom <= 3
  {
    HeadFields(r, fmt) + roomFields + Blanks(6 - 2 * r.numOfRoom) + [fmt.cost(r.totalCost)]
  }

  /** A record body is the comma-join of its fields when the room list is written field by field. */
  lemma RecordBodyIsJoin(r: Reservation, fmt: Formats, roomFields: seq<string>)
    requires 0 <= r.numOfRoom <= 3
    requires fmt.rooms(r.rooms) == TerminatedOn(roomFields, ',')
    ensures RecordBody(r, fmt) == JoinOn(RecordFields(r, fmt, roomFields), ',')
  {
    var head := HeadFields(r, fmt);
    var blanks := Blanks(6 - 2 * r.numOfRoom);
    var cost := fmt.cost(r.totalCost);
    PaddingIsBlankFields(3 - r.numOfRoom);
    assert 2 * (3 - r.numOfRoom) == 6 - 2 * r.numOfRoom;
    TerminatedAppend(head, roomFields, ',');
    TerminatedAppend(head + roomFields, blanks, ',');
    TerminatedThenLast(head + roomFields + blanks, cost, ',');
  }

  /** Under the layout's conditions no record field holds a comma. */
  lemma RecordFieldsCommaFree(r: Reservation, fmt: Formats, roomFields: seq<string>)
    requires 0 <= r.numOfRoom <= 3
    requires |roomFields| == 2 * r.numOfRoom
    requires forall i :: 0 <= i < |roomFields| ==> ',' !in roomFields[i]
    requires Plain(r.name) && Plain(r.resType)
    requires Plain(fmt.date(r.checkIn)) && Plain(fmt.date(r.checkOut)) && Plain(fmt.cost(r.totalCost))
    ensures |RecordFields(r, fmt, roomFields)| == 13
    ensures forall i :: 0 <= i < 13 ==> ',' !in RecordFields(r, fmt, roomFields)[i]
  {
    var head := HeadFields(r, fmt);
    var all := RecordFields(r, fmt, roomFields);
    forall i | 0 <= i < 13
      ensures ',' !in all[i]
    {
      if i < 6 {
        assert all[i] == head[i];
      } else if i < 6 + |roomFields| {
        assert all[i] == roomFields[i - 6];
      } else if i < 12 {
        assert all[i] == "";
      } else {
        assert all[i] == fmt.cost(r.totalCost);
      }
    }
  }

  /** The record bodies of `rs`, in store order. */
  function Bodies(rs: seq<Reservation>, fmt: Formats): (bs: seq<string>)
    ensures |bs| == |rs|
    ensures forall i :: 0 <= i < |rs| ==> bs[i] == RecordBody(rs[i], fmt)
  {
    if rs == [] then [] else Bodies(rs[..|rs| - 1], fmt) + [RecordBody(rs[|rs| - 1], fmt)]
  }

  /** The record lines of a store are the record bodies, each ended by a line break. */
  lemma {:induction false} RecordsTerminated(rs: seq<Reservation>, fmt: Formats)
    ensures Records(rs, fmt) == TerminatedOn(Bodies(rs, fmt), '\n')
  {
    if rs != [] {
      var init := rs[..|rs| - 1];
      var last := RecordBody(rs[|rs| - 1], fmt);
      RecordsTerminated(init, fmt);
      TerminatedAppend(Bodies(init, fmt), [last], '\n');
      assert TerminatedOn([last], '\n') == last + "\n";
    }
  }

  /**
   * Cut at line breaks, a reservation file is the header line, then each
   * reservation's record in store order, then the empty rest after the last
   * line break.
   */
  lemma FileLines(rs: seq<Reservation>, fmt: Formats)
    requires forall i :: 0 <= i < |rs| ==> '\n' !in RecordBody(rs[i], fmt)
    ensures SplitOn(WriteFile(rs, fmt), '\n') == [HeaderLine()] + Bodies(rs, fmt) + [""]
  {
    var bodies := Bodies(rs, fmt);
    RecordsTerminated(rs, fmt);
    assert TerminatedOn([HeaderLine()], '\n') == Header();
    TerminatedAppend([HeaderLine()], bodies, '\n');
    SplitTerminated([HeaderLine()] + bodies, '\n');
  }
}

=== FILE: hotel.dfy ===
/**
 * The room inventory: room types with their capacity, maximum occupancy and a
 * weekday rate table, and the two name-based tier rules of the engine. The
 * rule that files room types into hotels when the inventory is loaded and the
 * rule that credits income in the billing report are different rules and are
 * kept apart here.
 */
module Hotel {

  /** Seven daily rates, Monday first. */
  type RateTable = s: seq<int> | |s| == 7 witness [0, 0, 0, 0, 0, 0, 0]

  /** A bookable room type: name, number of rooms, guests per room, daily rates. */
  datatype RoomType = RoomType(name: string, units: int, maxOccupancy: int, rates: RateTable)

  /** Room types by name; stands in for the hotel list's lookups by room type. */
  type Inventory = map<string, RoomType>

  datatype Tier = ThreeStar | FourStar | FiveStar

  /** `sub` occurs somewhere in `s` (Java's `String.contains`). */
  predicate Contains(s: string, sub: string)
    decreases |s|
  {
    sub <= s || (|s| > 0 && Contains(s[1..], sub))
  }

  /** `sub` occurs in `s` starting at index `i`. */
  predicate OccursAt(s: string, sub: string, i: int)
  {
    0 <= i <= |s| - |sub| && sub <= s[i..]
  }

  /** `Contains` finds exactly the occurrences at some index. */
  lemma {:induction false} ContainsIffOccurs(s: string, sub: string)
    ensures Contains(s, sub) <==> exists i :: OccursAt(s, sub, i)
    decreases |s|
  {
    if sub <= s {
      assert OccursAt(s, sub, 0);
    } else if |s| == 0 {
    } else {
      ContainsIffOccurs(s[1..], sub);
      if Contains(s[1..], sub) {
        var i :| OccursAt(s[1..], sub, i);
        assert s[1..][i..] == s[i + 1..];
        assert OccursAt(s, sub, i + 1);
      }
      forall i | OccursAt(s, sub, i)
        ensures Contains(s[1..], sub)
      {
        assert i != 0;
        assert s[1..][i - 1..] == s[i..];
        assert OccursAt(s[1..], sub, i - 1);
      }
    }
  }

  /** The word `w` occurs at some position of `name`. */
  ghost predicate Mentions(name: string, w: string)
  {
    exists i :: OccursAt(name, w, i)
  }

  /**
   * Tier a room type is filed under when the inventory is loaded: 5-star
   * exactly when the name mentions "Deluxe", 4-star exactly when it mentions
   * "Executive" but not "Deluxe".
   */
  function InventoryTier(name: string): (t: Tier)
    ensures t == FiveStar <==> Mentions(name, "Deluxe")
    ensures t == FourStar <==> !Mentions(name, "Deluxe") && Mentions(name, "Executive")
  {
    ContainsIffOccurs(name, "Deluxe");
    ContainsIffOccurs(name, "Executive");
    if Contains(name, "Deluxe") then FiveStar
    else if Contains(name, "Executive") then FourStar
    else ThreeStar
  }

  /**
   * Tier a booked room's income is credited to by the billing report: 3-star
   * exactly when the name mentions "Classic", 4-star exactly when it mentions
   * "Executive" but not "Classic".
   */
  function BillingTier(name: string): (t: Tier)
    ensures t == ThreeStar <==> Mentions(name, "Classic")
    ensures t == FourStar <==> !Mentions(name, "Classic") && Mentions(name, "Executive")
  {
    ContainsIffOccurs(name, "Classic");
    ContainsIffOccurs(name, "Executive");
    if Contains(name, "Classic") then ThreeStar
    else if Contains(name, "Executive") then FourStar
    else FiveStar
  }

  /**
   * The two tier rules agree on a name exactly when it carries one of the
   * three marker words and nothing contradicts it: "Deluxe" alone, "Executive"
   * without "Deluxe" or "Classic", or "Classic" alone.
   */
  lemma TierRulesAgreement(name: string)
    ensures InventoryTier(name) == BillingTier(name) <==>
      var deluxe, executive, classic :=
        Contains(name, "Deluxe"), Contains(name, "Executive"), Contains(name, "Classic");
      (deluxe && !executive && !classic) ||
      (!deluxe && executive && !classic) ||
      (!deluxe && !executive && classic)
  {
  }

  /** A name with no marker word is a 3-star room at load time but 5-star income. */
  lemma UnmarkedNameDisagrees(name: string)
    requires !Contains(name, "Deluxe") && !Contains(name, "Executive") && !Contains(name, "Classic")
    ensures InventoryTier(name) == ThreeStar
    ensures BillingTier(name) == FiveStar
  {
  }

  /** "Twin" carries no marker word, so it is loaded as 3-star and billed as 5-star. */
  lemma TwinDisagrees()
    ensures InventoryTier("Twin") == ThreeStar
    ensures BillingTier("Twin") == FiveStar
  {
    UnmarkedNameDisagrees("Twin");
  }

  /** The three hotels built from the inventory rows, each in row order. */
  datatype Hotels = Hotels(threeStar: seq<RoomType>, fourStar: seq<RoomType>, fiveStar: seq<RoomType>)
  {
    /** The room types filed under `t`. */
    function Filed(t: Tier): seq<RoomType>
    {
      match t
      case ThreeStar => threeStar
      case FourStar => fourStar
      case FiveStar => fiveStar
    }
  }

  /** Adds room type `x` to the end of the hotel its name selects. */
  function File(h: Hotels, x: RoomType): (h': Hotels)
    ensures forall t: Tier :: h'.Filed(t) == h.Filed(t) + (if InventoryTier(x.name) == t then [x] else [])
  {
    match InventoryTier(x.name)
    case FiveStar => h.(fiveStar := h.fiveStar + [x])
    case FourStar => h.(fourStar := h.fourStar + [x])
    case ThreeStar => h.(threeStar := h.threeStar + [x])
  }

  /**
   * Files each decoded room type, in row order, into the hotel its name
   * selects. Every row lands in exactly one hotel.
   */
  function LoadTiers(types: seq<RoomType>): (h: Hotels)
    ensures multiset(h.threeStar) + multiset(h.fourStar) + multiset(h.fiveStar) == multiset(types)
    ensures forall t: Tier, x :: x in h.Filed(t) ==> InventoryTier(x.name) == t
  {
    if types == [] then Hotels([], [], [])
    else
      assert types == types[..|types| - 1] + [types[|types| - 1]];
      File(LoadTiers(types[..|types| - 1]), types[|types| - 1])
  }

  /** Loading more rows only appends to each hotel: row order is kept. */
  lemma {:induction false} LoadTiersAppend(a: seq<RoomType>, b: seq<RoomType>)
    ensures forall t: Tier :: LoadTiers(a + b).Filed(t) == LoadTiers(a).Filed(t) + LoadTiers(b).Filed(t)
    decreases |b|
  {
    if b == [] {
      assert a + b == a;
    } else {
      var b', x := b[..|b| - 1], b[|b| - 1];
      LoadTiersAppend(a, b');
      assert (a + b)[..|a + b| - 1] == a + b';
      assert (a + b)[|a + b| - 1] == x;
    }
  }
}

=== FILE: lifecycle.dfy ===
/**
 * Creating, looking up and cancelling reservations. Creation is all or
 * nothing: every room is checked against the store as it stood before the
 * call, and only if all pass is the reservation appended. Cancellation
 * decides the refund and removes the reservation.
 */
module Lifecycle {
  import opened Common
  import opened Calendar
  import opened Hotel
  import opened Booking
  import opened Availability

  /** Every room of the request passes the availability check against `rs`. */
  predicate AllAvailable(inv: Inventory, rs: seq<Reservation>, rooms: seq<Room>, checkIn: Day, checkOut: Day)
    requires KnownRooms(inv, rooms)
  {
    forall i :: 0 <= i < |rooms| ==> Available(inv, rs, rooms[i].roomType, checkIn, checkOut)
  }

  /**
   * Books the rooms for the stay under reference number `refNo`. The total
   * cost is the caller's; it is stored, not computed. On any unavailable room
   * nothing is booked and the store is returned unchanged.
   */
  method MakeReservation(
    inv: Inventory, rs: seq<Reservation>,
    refNo: int, name: string, resType: string, checkIn: Day, checkOut: Day,
    numOfRoom: int, rooms: seq<Room>, totalCost: real)
    returns (made: Option<Reservation>, store: seq<Reservation>)
    requires KnownRooms(inv, rooms)
    ensures made.None? <==> !AllAvailable(inv, rs, rooms, checkIn, checkOut)
    ensures made.None? ==> store == rs
    ensures made.Some? ==> store == rs + [made.value]
    ensures made.Some? ==> made.value == Reservation(refNo, name, resType, checkIn, checkOut, numOfRoom, rooms, totalCost)
  {
    var i := 0;
    while i < |rooms|
      invariant 0 <= i <= |rooms|
      invariant forall j :: 0 <= j < i ==> Available(inv, rs, rooms[j].roomType, checkIn, checkOut)
    {
      if !Available(inv, rs, rooms[i].roomType, checkIn, checkOut) {
        return None, rs;
      }
      i := i + 1;
    }
    var reservation := Reservation(refNo, name, resType, checkIn, checkOut, numOfRoom, rooms, totalCost);
    return Some(reservation), rs + [reservation];
  }

  /**
   * Rooms of one request are each checked against the old store, not against
   * each other: when a type has one room left, a request for two rooms of
   * that type passes and books more rooms than the type has.
   */
  lemma RequestCanOverbookItself(inv: Inventory, rs: seq<Reservation>, t: string, qIn: Day, qOut: Day)
    requires t in inv && Taken(rs, t, qIn, qOut) == inv[t].units - 1
    ensures var rooms := [Room(t, 1), Room(t, 1)];
      KnownRooms(inv, rooms) && AllAvailable(inv, rs, rooms, qIn, qOut) &&
      Taken(rs, t, qIn, qOut) + UnitsOf(rooms, t) > inv[t].units
  {
    var rooms := [Room(t, 1), Room(t, 1)];
    assert rooms[1..] == [Room(t, 1)];
  }

  /** On an empty store, two rooms of a one-room type are both accepted. */
  lemma SingleRoomOverbooked()
    ensures var inv := map["Single" := RoomType("Single", 1, 1, [80, 80, 80, 80, 80, 90, 90])];
      var rooms := [Room("Single", 1), Room("Single", 1)];
      AllAvailable(inv, [], rooms, 0, 2) && UnitsOf(rooms, "Single") > inv["Single"].units
  {
    var inv := map["Single" := RoomType("Single", 1, 1, [80, 80, 80, 80, 80, 90, 90])];
    RequestCanOverbookItself(inv, [], "Single", 0, 2);
  }

  /** Some active reservation has reference number `refNo`. */
  function IsValidReservationNumber(rs: seq<Reservation>, refNo: int): (found: bool)
    ensures found <==> exists i :: 0 <= i < |rs| && rs[i].refNo == refNo
  {
    if rs == [] then false
    else if rs[0].refNo == refNo then true
    else
      var rest := IsValidReservationNumber(rs[1..], refNo);
      assert forall i :: 1 <= i < |rs| ==> rs[i] == rs[1..][i - 1];
      rest
  }

  /** No reservation before position `k` has reference number `refNo`. */
  predicate NoneBefore(rs: seq<Reservation>, refNo: int, k: int)
    requires 0 <= k <= |rs|
  {
    forall j :: 0 <= j < k ==> rs[j].refNo != refNo
  }

  /** The first active reservation with reference number `refNo`, if there is one. */
  function FindReservation(rs: seq<Reservation>, refNo: int): (found: Option<Reservation>)
    ensures found.None? <==> !IsValidReservationNumber(rs, refNo)
    ensures found.Some? ==>
      (found.value.refNo == refNo && exists i :: 0 <= i < |rs| && rs[i] == found.value && NoneBefore(rs, refNo, i))
  {
    if rs == [] then None
    else if rs[0].refNo == refNo then Some(rs[0])
    else
      var rest := FindReservation(rs[1..], refNo);
      assert rest.Some? ==> exists i :: 0 <= i < |rs| && rs[i] == rest.value && NoneBefore(rs, refNo, i) by {
        if rest.Some? {
          var i :| 0 <= i < |rs[1..]| && rs[1..][i] == rest.value && NoneBefore(rs[1..], refNo, i);
          assert rs[i + 1] == rest.value;
          assert NoneBefore(rs, refNo, i + 1);
        }
      }
      rest
  }

  /** Index of the first occurrence of `x` in `rs`. */
  function FirstIndex(rs: seq<Reservation>, x: Reservation): (i: nat)
    requires x in rs
    ensures i < |rs| && rs[i] == x && x !in rs[..i]
  {
    if rs[0] == x then 0
    else
      var i := FirstIndex(rs[1..], x);
      assert rs[..i + 1] == [rs[0]] + rs[1..][..i];
      i + 1
  }

  /**
   * The store without the first occurrence of `x` (Java's `List.remove`);
   * unchanged when `x` is not in it.
   */
  function RemoveFirst(rs: seq<Reservation>, x: Reservation): (out: seq<Reservation>)
    ensures x !in rs ==> out == rs
    ensures x in rs ==> out == rs[..FirstIndex(rs, x)] + rs[FirstIndex(rs, x) + 1..]
  {
    if rs == [] then []
    else if rs[0] == x then rs[1..]
    else
      var rest := RemoveFirst(rs[1..], x);
      assert x in rs ==> rs[..FirstIndex(rs, x)] == [rs[0]] + rs[1..][..FirstIndex(rs[1..], x)];
      [rs[0]] + rest
  }

  /** Removal takes away one copy of `x` and keeps every other reservation. */
  lemma RemoveFirstMultiset(rs: seq<Reservation>, x: Reservation)
    ensures multiset(RemoveFirst(rs, x)) == multiset(rs) - multiset{x}
  {
    if x in rs {
      var k := FirstIndex(rs, x);
      assert rs == rs[..k] + [x] + rs[k + 1..];
    } else {
      assert multiset(rs)[x] == 0;
    }
  }

  /** What a cancellation decides: the refund due, if any, and the store afterwards. */
  datatype Cancellation = Cancellation(refund: Option<real>, store: seq<Reservation>)

  /**
   * Cancels `res` on day `today`. An advance reservation is never refunded; a
   * standard one is refunded its total cost when cancelled at least two days
   * before check-in. Either way the reservation leaves the store.
   */
  function CancelReservation(rs: seq<Reservation>, res: Reservation, today: Day): (c: Cancellation)
    ensures c.refund.Some? <==> res.resType != AdvancePurchase && res.checkIn - today >= 2
    ensures c.refund.Some? ==> c.refund.value == res.totalCost
    ensures res in rs ==> |c.store| == |rs| - 1 && multiset(c.store) + multiset{res} == multiset(rs)
    ensures res !in rs ==> c.store == rs
  {
    RemoveFirstMultiset(rs, res);
    var cancelLimit := res.checkIn - 2;
    if res.resType == AdvancePurchase then Cancellation(None, RemoveFirst(rs, res))
    else if today > cancelLimit then Cancellation(None, RemoveFirst(rs, res))
    else Cancellation(Some(res.totalCost), RemoveFirst(rs, res))
  }

  /**
   * Cancelling removes exactly the one reservation: what comes before it and
   * what comes after it stay, in order.
   */
  lemma CancelKeepsOthers(rs: seq<Reservation>, i: nat, today: Day)
    requires i < |rs|
    requires rs[i] !in rs[..i]
    ensures CancelReservation(rs, rs[i], today).store == rs[..i] + rs[i + 1..]
  {
    var k := FirstIndex(rs, rs[i]);
    assert k == i;
  }

  /**
   * A new reservation with an unused reference number is found by it, and
   * lookups of every other number are unaffected.
   */
  lemma {:induction false} FindAfterCreate(rs: seq<Reservation>, x: Reservation, n: int)
    requires !IsValidReservationNumber(rs, x.refNo)
    ensures FindReservation(rs + [x], n) == if n == x.refNo then Some(x) else FindReservation(rs, n)
  {
    if rs == [] {
      assert [x][1..] == [];
    } else {
      FindAfterCreate(rs[1..], x, n);
      assert (rs + [x])[1..] == rs[1..] + [x];
    }
  }

  /** Removing a reservation leaves every lookup of another number as it was. */
  lemma {:induction false} FindAfterRemove(rs: seq<Reservation>, x: Reservation, n: int)
    requires n != x.refNo
    ensures FindReservation(RemoveFirst(rs, x), n) == FindReservation(rs, n)
  {
    if rs != [] && rs[0] != x {
      FindAfterRemove(rs[1..], x, n);
      assert ([rs[0]] + RemoveFirst(rs[1..], x))[1..] == RemoveFirst(rs[1..], x);
    }
  }

  /**
   * With unique reference numbers, a cancelled reservation's number is no
   * longer valid, and every other number finds what it found before.
   */
  lemma FindAfterCancel(rs: seq<Reservation>, x: Reservation, n: int, today: Day)
    requires UniqueRefNos(rs)
    requires x in rs
    ensures !IsValidReservationNumber(CancelReservation(rs, x, today).store, x.refNo)
    ensures n != x.refNo ==> FindReservation(CancelReservation(rs, x, today).store, n) == FindReservation(rs, n)
  {
    var store := CancelReservation(rs, x, today).store;
    var k := FirstIndex(rs, x);
    assert store == rs[..k] + rs[k + 1..];
    forall i | 0 <= i < |store|
      ensures store[i].refNo != x.refNo
    {
      if i < k {
        assert store[i] == rs[i];
      } else {
        assert store[i] == rs[i + 1];
      }
    }
    if n != x.refNo {
      FindAfterRemove(rs, x, n);
    }
  }
}

=== FILE: pricing.dfy ===
/**
 * Prices of stays. A room costs its type's rate for the weekday of every
 * night from check-in up to, not including, check-out; an advance ("AP")
 * reservation pays 95% of that. A reservation of several rooms pays the sum
 * of its rooms' prices, each discounted on its own.
 */
module Pricing {
  import opened Calendar
  import opened Hotel
  import opened Booking

  /** Sum of the daily rates of the nights checkIn, checkIn + 1, ..., checkOut - 1. */
  function StaySum(rates: RateTable, checkIn: Day, checkOut: Day): (s: int)
    requires checkIn <= checkOut
    ensures (forall k :: 0 <= k < 7 ==> rates[k] >= 0) ==> s >= 0
    ensures checkOut == checkIn + 1 ==> s == rates[Weekday(checkIn)]
    decreases checkOut - checkIn
  {
    if checkIn == checkOut then 0
    else StaySum(rates, checkIn, checkOut - 1) + rates[Weekday(checkOut - 1)]
  }

  /** The amount charged for a stay summing to `amount` under reservation type `resType`. */
  function Discounted(resType: string, amount: real): real
  {
    if resType == AdvancePurchase then amount * 0.95 else amount
  }

  /** Price of one room of type `roomType` for the stay. */
  function RoomCost(inv: Inventory, roomType: string, checkIn: Day, checkOut: Day, resType: string): (c: real)
    requires roomType in inv
    requires checkIn <= checkOut
    ensures var full := StaySum(inv[roomType].rates, checkIn, checkOut) as real;
      (full >= 0.0 ==> 0.0 <= c <= full) && (c == 0.0 <==> full == 0.0)
  {
    Discounted(resType, StaySum(inv[roomType].rates, checkIn, checkOut) as real)
  }

  /** Price of all of `rooms` for the stay, added up in list order. */
  function RoomsCost(inv: Inventory, rooms: seq<Room>, checkIn: Day, checkOut: Day, resType: string): real
    requires KnownRooms(inv, rooms)
    requires checkIn <= checkOut
  {
    if rooms == [] then 0.0
    else
      var last := rooms[|rooms| - 1];
      RoomsCost(inv, rooms[..|rooms| - 1], checkIn, checkOut, resType)
        + RoomCost(inv, last.roomType, checkIn, checkOut, resType)
  }

  /**
   * Walks the nights of the stay one day at a time, adding each night's
   * weekday rate, then applies the advance discount. The walk ends only
   * because check-in is not after check-out.
   */
  method CalcRoomCost(inv: Inventory, roomType: string, checkIn: Day, checkOut: Day, resType: string)
    returns (total: real)
    requires roomType in inv
    requires checkIn <= checkOut
    ensures total == RoomCost(inv, roomType, checkIn, checkOut, resType)
  {
    var rates := inv[roomType].rates;
    var day := checkIn;
    total := 0.0;
    while day != checkOut
      invariant checkIn <= day <= checkOut
      invariant total == StaySum(rates, checkIn, day) as real
      decreases checkOut - day
    {
      total := total + rates[Weekday(day)] as real;
      day := day + 1;
    }
    if resType == AdvancePurchase {
      total := total * 0.95;
    }
  }

  /** Adds up the price of each room of the reservation, in list order. */
  method CalcTotalCost(inv: Inventory, rooms: seq<Room>, checkIn: Day, checkOut: Day, resType: string)
    returns (total: real)
    requires KnownRooms(inv, rooms)
    requires checkIn <= checkOut
    ensures total == RoomsCost(inv, rooms, checkIn, checkOut, resType)
  {
    total := 0.0;
    var i := 0;
    while i < |rooms|
      invariant 0 <= i <= |rooms|
      invariant total == RoomsCost(inv, rooms[..i], checkIn, checkOut, resType)
    {
      var cost := CalcRoomCost(inv, rooms[i].roomType, checkIn, checkOut, resType);
      assert rooms[..i + 1][..i] == rooms[..i];
      total := total + cost;
      i := i + 1;
    }
    assert rooms[..|rooms|] == rooms;
  }

  /** A stay that checks out on its check-in day costs nothing, whatever the rates. */
  lemma EmptyStayIsFree(inv: Inventory, roomType: string, day: Day, resType: string)
    requires roomType in inv
    ensures RoomCost(inv, roomType, day, day, resType) == 0.0
  {
  }

  /** A stay split at any night costs the sum of its two parts. */
  lemma {:induction false} StaySumSplit(rates: RateTable, a: Day, m: Day, b: Day)
    requires a <= m <= b
    ensures StaySum(rates, a, b) == StaySum(rates, a, m) + StaySum(rates, m, b)
    decreases b - m
  {
    if m < b {
      StaySumSplit(rates, a, m, b - 1);
    }
  }

  /** The sum of the seven rates of a room type. */
  function WeekTotal(rates: RateTable): int
  {
    rates[0] + rates[1] + rates[2] + rates[3] + rates[4] + rates[5] + rates[6]
  }

  /** A week starting on a Monday costs the rates in table order. */
  lemma MondayWeek(rates: RateTable, monday: Day)
    requires Weekday(monday) == 0
    ensures StaySum(rates, monday, monday + 7) == WeekTotal(rates)
  {
    var m := monday;
    WeekdayShift(m, 1);
    WeekdayShift(m, 2);
    WeekdayShift(m, 3);
    WeekdayShift(m, 4);
    WeekdayShift(m, 5);
    WeekdayShift(m, 6);
    assert StaySum(rates, m, m + 1) == rates[0];
    assert StaySum(rates, m, m + 2) == rates[0] + rates[1];
    assert StaySum(rates, m, m + 3) == rates[0] + rates[1] + rates[2];
    assert StaySum(rates, m, m + 4) == rates[0] + rates[1] + rates[2] + rates[3];
    assert StaySum(rates, m, m + 5) == rates[0] + rates[1] + rates[2] + rates[3] + rates[4];
    assert StaySum(rates, m, m + 6) == rates[0] + rates[1] + rates[2] + rates[3] + rates[4] + rates[5];
  }

  /** Sliding a seven-night stay forward by one day does not change its cost. */
  lemma SlideWeek(rates: RateTable, a: Day)
    ensures StaySum(rates, a + 1, a + 8) == StaySum(rates, a, a + 7)
  {
    StaySumSplit(rates, a, a + 1, a + 7);
    StaySumSplit(rates, a + 1, a + 7, a + 8);
    WeekdayShift(a, 7);
  }

  /** Any seven consecutive nights cost one of each weekday rate. */
  lemma {:induction false} WeekStay(rates: RateTable, a: Day)
    ensures StaySum(rates, a, a + 7) == WeekTotal(rates)
    decreases Weekday(a)
  {
    if Weekday(a) == 0 {
      MondayWeek(rates, a);
    } else {
      WeekdayShift(a - 1, 1);
      WeekStay(rates, a - 1);
      SlideWeek(rates, a - 1);
    }
  }

  /** A stay of n whole weeks costs n times the weekly total, from any starting day. */
  lemma {:induction false} WholeWeeks(rates: RateTable, a: Day, n: nat)
    ensures StaySum(rates, a, a + 7 * n) == n * WeekTotal(rates)
  {
    if n > 0 {
      WholeWeeks(rates, a, n - 1);
      StaySumSplit(rates, a, a + 7 * (n - 1), a + 7 * n);
      WeekStay(rates, a + 7 * (n - 1));
    }
  }

  /** An advance stay of one room costs exactly 95% of the same stay of any other type. */
  lemma AdvanceDiscount(inv: Inventory, roomType: string, checkIn: Day, checkOut: Day, other: string)
    requires roomType in inv
    requires checkIn <= checkOut
    requires other != AdvancePurchase
    ensures RoomCost(inv, roomType, checkIn, checkOut, AdvancePurchase)
      == 0.95 * RoomCost(inv, roomType, checkIn, checkOut, other)
  {
  }

  /** The discount carries over to several rooms: the advance total is 95% of the standard total. */
  lemma {:induction false} AdvanceDiscountRooms(inv: Inventory, rooms: seq<Room>, checkIn: Day, checkOut: Day, other: string)
    requires KnownRooms(inv, rooms)
    requires checkIn <= checkOut
    requires other != AdvancePurchase
    ensures RoomsCost(inv, rooms, checkIn, checkOut, AdvancePurchase)
      == 0.95 * RoomsCost(inv, rooms, checkIn, checkOut, other)
  {
    if rooms != [] {
      AdvanceDiscountRooms(inv, rooms[..|rooms| - 1], checkIn, checkOut, other);
    }
  }

  /** The price of a room list is the price of its first part plus the price of the rest. */
  lemma {:induction false} RoomsCostAppend(inv: Inventory, a: seq<Room>, b: seq<Room>, checkIn: Day, checkOut: Day, resType: string)
    requires KnownRooms(inv, a) && KnownRooms(inv, b)
    requires checkIn <= checkOut
    ensures KnownRooms(inv, a + b)
    ensures RoomsCost(inv, a + b, checkIn, checkOut, resType)
      == RoomsCost(inv, a, checkIn, checkOut, resType) + RoomsCost(inv, b, checkIn, checkOut, resType)
    decreases |b|
  {
    if b != [] {
      var b' := b[..|b| - 1];
      RoomsCostAppend(inv, a, b', checkIn, checkOut, resType);
      assert (a + b)[..|a + b| - 1] == a + b';
      assert (a + b)[|a + b| - 1] == b[|b| - 1];
    } else {
      assert a + b == a;
    }
  }

  /**
   * A standard single room at 50 a night on weekdays and 70 at weekends costs
   * 100 from Monday 2024-03-04 (day 19786) to Wednesday 2024-03-06, and 95 as
   * an advance reservation.
   */
  lemma WeekdayPricingExample()
    ensures var inv := map["StandardSingle" := RoomType("StandardSingle", 2, 1, [50, 50, 50, 50, 50, 70, 70])];
      RoomCost(inv, "StandardSingle", 19786, 19788, "S") == 100.0 &&
      RoomCost(inv, "StandardSingle", 19786, 19788, AdvancePurchase) == 95.0
  {
    var rates: RateTable := [50, 50, 50, 50, 50, 70, 70];
    assert Weekday(19786) == 0 && Weekday(19787) == 1;
    assert StaySum(rates, 19786, 19788) == 100;
  }
}

=== FILE: reports.dfy ===
/**
 * Reports over a date window [start, end]. A reservation counts only when
 * its whole stay lies inside the window (start <= check-in and check-out <=
 * end); others are left out entirely. Each report is four numbers: one per
 * tier (3-, 4- and 5-star, in that order) and their total.
 */
module Reports {
  import opened Common
  import opened Calendar
  import opened Hotel
  import opened Booking
  import opened Pricing

  /**
   * The whole stay of `r` lies inside [start, end]. Both ends are inclusive,
   * and a stay inside is no longer than the window.
   */
  predicate InWindow(r: Reservation, start: Day, end: Day): (b: bool)
    ensures r.checkIn == start && r.checkOut == end ==> b
    ensures b ==> r.checkOut - r.checkIn <= end - start
  {
    start <= r.checkIn && r.checkOut <= end
  }

  /**
   * The reservations of `rs` inside the window, in store order: each one
   * inside is kept as often as it occurs, and nothing else is.
   */
  function Window(rs: seq<Reservation>, start: Day, end: Day): (w: seq<Reservation>)
    ensures forall i :: 0 <= i < |w| ==> InWindow(w[i], start, end) && w[i] in rs
    ensures forall r :: r in rs && InWindow(r, start, end) ==> r in w
    ensures forall r :: multiset(w)[r] == if InWindow(r, start, end) then multiset(rs)[r] else 0
  {
    if rs == [] then []
    else
      var last := rs[|rs| - 1];
      var w := Window(rs[..|rs| - 1], start, end);
      assert rs == rs[..|rs| - 1] + [last];
      if InWindow(last, start, end) then w + [last] else w
  }

  /** Guests in the rooms of `rooms` whose type the inventory files under `tier`. */
  function GuestsIn(rooms: seq<Room>, tier: Tier): int
  {
    if rooms == [] then 0
    else
      var last := rooms[|rooms| - 1];
      GuestsIn(rooms[..|rooms| - 1], tier) + (if InventoryTier(last.roomType) == tier then last.occupancy else 0)
  }

  /** Guests in all of `rooms`. */
  function AllGuests(rooms: seq<Room>): int
  {
    if rooms == [] then 0 else AllGuests(rooms[..|rooms| - 1]) + rooms[|rooms| - 1].occupancy
  }

  /** Most guests the rooms of `rooms` filed under `tier` could hold. */
  function CapacityIn(inv: Inventory, rooms: seq<Room>, tier: Tier): int
    requires KnownRooms(inv, rooms)
  {
    if rooms == [] then 0
    else
      var last := rooms[|rooms| - 1];
      CapacityIn(inv, rooms[..|rooms| - 1], tier)
        + (if InventoryTier(last.roomType) == tier then inv[last.roomType].maxOccupancy else 0)
  }

  /** Price of the rooms of `rooms` whose income the billing rule credits to `tier`. */
  function IncomeIn(inv: Inventory, rooms: seq<Room>, checkIn: Day, checkOut: Day, resType: string, tier: Tier): real
    requires KnownRooms(inv, rooms)
    requires checkIn <= checkOut
  {
    if rooms == [] then 0.0
    else
      var last := rooms[|rooms| - 1];
      IncomeIn(inv, rooms[..|rooms| - 1], checkIn, checkOut, resType, tier)
        + (if BillingTier(last.roomType) == tier then RoomCost(inv, last.roomType, checkIn, checkOut, resType) else 0.0)
  }

  /** Every reservation inside the window has known room types. */
  predicate WindowKnown(inv: Inventory, rs: seq<Reservation>, start: Day, end: Day)
  {
    forall i :: 0 <= i < |rs| && InWindow(rs[i], start, end) ==> KnownRooms(inv, rs[i].rooms)
  }

  /** Every reservation inside the window can be priced. */
  predicate WindowPriceable(inv: Inventory, rs: seq<Reservation>, start: Day, end: Day)
  {
    forall i :: 0 <= i < |rs| && InWindow(rs[i], start, end) ==> Priceable(inv, rs[i])
  }

  /** Guests of tier `tier` over the reservations inside the window. */
  function WindowGuests(rs: seq<Reservation>, start: Day, end: Day, tier: Tier): int
  {
    if rs == [] then 0
    else
      var last := rs[|rs| - 1];
      WindowGuests(rs[..|rs| - 1], start, end, tier) + (if InWindow(last, start, end) then GuestsIn(last.rooms, tier) else 0)
  }

  /** Guests of every tier over the reservations inside the window. */
  function WindowAllGuests(rs: seq<Reservation>, start: Day, end: Day): int
  {
    if rs == [] then 0
    else
      var last := rs[|rs| - 1];
      WindowAllGuests(rs[..|rs| - 1], start, end) + (if InWindow(last, start, end) then AllGuests(last.rooms) else 0)
  }

  /** Room capacity of tier `tier` over the reservations inside the window. */
  function WindowCapacity(inv: Inventory, rs: seq<Reservation>, start: Day, end: Day, tier: Tier): int
    requires WindowKnown(inv, rs, start, end)
  {
    if rs == [] then 0
    else
      var last := rs[|rs| - 1];
      WindowCapacity(inv, rs[..|rs| - 1], start, end, tier)
        + (if InWindow(last, start, end) then CapacityIn(inv, last.rooms, tier) else 0)
  }

  /** Income credited to `tier` over the reservations inside the window. */
  function WindowIncome(inv: Inventory, rs: seq<Reservation>, start: Day, end: Day, tier: Tier): real
    requires WindowPriceable(inv, rs, start, end)
  {
    if rs == [] then 0.0
    else
      var r := rs[|rs| - 1];
      WindowIncome(inv, rs[..|rs| - 1], start, end, tier)
        + (if InWindow(r, start, end) then IncomeIn(inv, r.rooms, r.checkIn, r.checkOut, r.resType, tier) else 0.0)
  }

  /** Price of every reservation inside the window, each priced from its rooms, dates and type. */
  function WindowStayCost(inv: Inventory, rs: seq<Reservation>, start: Day, end: Day): real
    requires WindowPriceable(inv, rs, start, end)
  {
    if rs == [] then 0.0
    else
      var r := rs[|rs| - 1];
      WindowStayCost(inv, rs[..|rs| - 1], start, end)
        + (if InWindow(r, start, end) then RoomsCost(inv, r.rooms, r.checkIn, r.checkOut, r.resType) else 0.0)
  }

  /** Guests per tier, then in total, over the reservations inside the window. */
  function OccupancyFigures(rs: seq<Reservation>, start: Day, end: Day): (f: seq<int>)
    ensures |f| == 4
    ensures f[3] == f[0] + f[1] + f[2]
  {
    var three := WindowGuests(rs, start, end, ThreeStar);
    var four := WindowGuests(rs, start, end, FourStar);
    var five := WindowGuests(rs, start, end, FiveStar);
    [three, four, five, three + four + five]
  }

  /** `current` as a percentage of `maximum`, or 0 when there is no maximum. */
  function Percent(current: int, maximum: int): (p: real)
    ensures maximum == 0 ==> p == 0.0
    ensures maximum != 0 ==> p * maximum as real == 100.0 * current as real
  {
    if maximum == 0 then 0.0 else current as real / maximum as real * 100.0
  }

  /** Most guests the booked rooms could hold, per tier and then in total, inside the window. */
  function MaximalOccupancy(inv: Inventory, rs: seq<Reservation>, start: Day, end: Day): (m: seq<int>)
    requires WindowKnown(inv, rs, start, end)
    ensures |m| == 4
    ensures m[3] == m[0] + m[1] + m[2]
  {
    var three := WindowCapacity(inv, rs, start, end, ThreeStar);
    var four := WindowCapacity(inv, rs, start, end, FourStar);
    var five := WindowCapacity(inv, rs, start, end, FiveStar);
    [three, four, five, three + four + five]
  }

  /**
   * Occupancy per tier, then in total, as a percentage of the most guests the
   * booked rooms could hold. A column with no capacity booked has rate 0.
   */
  function OccupancyRates(inv: Inventory, rs: seq<Reservation>, start: Day, end: Day): (rates: seq<real>)
    requires WindowKnown(inv, rs, start, end)
    ensures |rates| == 4
    ensures forall k :: 0 <= k < 4 && MaximalOccupancy(inv, rs, start, end)[k] == 0 ==> rates[k] == 0.0
    ensures forall k :: 0 <= k < 4 && MaximalOccupancy(inv, rs, start, end)[k] != 0 ==>
      rates[k] * MaximalOccupancy(inv, rs, start, end)[k] as real == 100.0 * OccupancyFigures(rs, start, end)[k] as real
  {
    var current := OccupancyFigures(rs, start, end);
    var maximum := MaximalOccupancy(inv, rs, start, end);
    seq(4, k requires 0 <= k < 4 => Percent(current[k], maximum[k]))
  }

  /** Income per billing tier, then in total, over the reservations inside the window. */
  function Billing(inv: Inventory, rs: seq<Reservation>, start: Day, end: Day): (income: seq<real>)
    requires WindowPriceable(inv, rs, start, end)
    ensures |income| == 4
    ensures income[3] == income[0] + income[1] + income[2]
  {
    var three := WindowIncome(inv, rs, start, end, ThreeStar);
    var four := WindowIncome(inv, rs, start, end, FourStar);
    var five := WindowIncome(inv, rs, start, end, FiveStar);
    [three, four, five, three + four + five]
  }

  /** Appending a reservation to the store appends it to the window when it lies inside. */
  lemma WindowSnoc(rs: seq<Reservation>, x: Reservation, start: Day, end: Day)
    ensures Window(rs + [x], start, end) == Window(rs, start, end) + if InWindow(x, start, end) then [x] else []
  {
    assert (rs + [x])[..|rs + [x]| - 1] == rs;
  }

  /** The window of two stores one after the other is their windows one after the other. */
  lemma {:induction false} WindowAppend(a: seq<Reservation>, b: seq<Reservation>, start: Day, end: Day)
    ensures Window(a + b, start, end) == Window(a, start, end) + Window(b, start, end)
  {
    if b == [] {
      assert a + b == a;
    } else {
      var init, last := b[..|b| - 1], b[|b| - 1];
      var wa, wi := Window(a, start, end), Window(init, start, end);
      var tail := if InWindow(last, start, end) then [last] else [];
      calc {
        Window(a + b, start, end);
        == { SplitLast(a, b); WindowSnoc(a + init, last, start, end); }
        Window(a + init, start, end) + tail;
        == { WindowAppend(a, init, start, end); }
        (wa + wi) + tail;
        ==
        wa + (wi + tail);
        == { SplitLast(a, b); WindowSnoc(init, last, start, end); }
        wa + Window(b, start, end);
      }
    }
  }

  /** Occupancy figures are the same whether or not the stays outside the window are in the store. */
  lemma {:induction false} FiguresSeeOnlyWindow(rs: seq<Reservation>, start: Day, end: Day, tier: Tier)
    ensures WindowGuests(Window(rs, start, end), start, end, tier) == WindowGuests(rs, start, end, tier)
  {
    if rs != [] {
      var init, last := rs[..|rs| - 1], rs[|rs| - 1];
      var w := Window(init, start, end);
      FiguresSeeOnlyWindow(init, start, end, tier);
      assert Window(rs, start, end) == if InWindow(last, start, end) then w + [last] else w by {
        SplitLast([], rs);
        WindowSnoc(init, last, start, end);
      }
      assert (w + [last])[..|w|] == w;
    }
  }

  /** Income is the same whether or not the stays outside the window are in the store. */
  lemma {:induction false} BillingSeesOnlyWindow(inv: Inventory, rs: seq<Reservation>, start: Day, end: Day, tier: Tier)
    requires WindowPriceable(inv, rs, start, end)
    ensures WindowPriceable(inv, Window(rs, start, end), start, end)
    ensures WindowIncome(inv, Window(rs, start, end), start, end, tier) == WindowIncome(inv, rs, start, end, tier)
  {
    WindowKeepsPriceable(inv, rs, start, end);
    if rs != [] {
      var init, last := rs[..|rs| - 1], rs[|rs| - 1];
      var w := Window(init, start, end);
      BillingSeesOnlyWindow(inv, init, start, end, tier);
      assert Window(rs, start, end) == if InWindow(last, start, end) then w + [last] else w by {
        SplitLast([], rs);
        WindowSnoc(init, last, start, end);
      }
      assert (w + [last])[..|w|] == w;
    }
  }

  /** The window of a priceable store, and the store without its last entry, are priceable too. */
  lemma WindowKeepsPriceable(inv: Inventory, rs: seq<Reservation>, start: Day, end: Day)
    requires WindowPriceable(inv, rs, start, end)
    ensures WindowPriceable(inv, Window(rs, start, end), start, end)
    ensures rs != [] ==> WindowPriceable(inv, rs[..|rs| - 1], start, end)
  {
    var win := Window(rs, start, end);
    forall i | 0 <= i < |win| && InWindow(win[i], start, end)
      ensures Priceable(inv, win[i])
    {
      var j :| 0 <= j < |rs| && rs[j] == win[i];
    }
    if rs != [] {
      var init := rs[..|rs| - 1];
      forall i | 0 <= i < |init| && InWindow(init[i], start, end)
        ensures Priceable(inv, init[i])
      {
        assert init[i] == rs[i];
      }
    }
  }

  /** Every room is filed under exactly one tier, so the tier guest counts add up to all guests. */
  lemma {:induction false} GuestsByTier(rooms: seq<Room>)
    ensures GuestsIn(rooms, ThreeStar) + GuestsIn(rooms, FourStar) + GuestsIn(rooms, FiveStar) == AllGuests(rooms)
  {
    if rooms != [] {
      GuestsByTier(rooms[..|rooms| - 1]);
    }
  }

  /** The total occupancy figure counts every guest of every reservation inside the window. */
  lemma {:induction false} FiguresTotalIsAllGuests(rs: seq<Reservation>, start: Day, end: Day)
    ensures OccupancyFigures(rs, start, end)[3] == WindowAllGuests(rs, start, end)
  {
    if rs != [] {
      FiguresTotalIsAllGuests(rs[..|rs| - 1], start, end);
      GuestsByTier(rs[|rs| - 1].rooms);
    }
  }

  /** Most guests every room of `rooms` could hold, whatever its tier. */
  function AllCapacity(inv: Inventory, rooms: seq<Room>): int
    requires KnownRooms(inv, rooms)
  {
    if rooms == [] then 0
    else
      var last := rooms[|rooms| - 1];
      AllCapacity(inv, rooms[..|rooms| - 1]) + inv[last.roomType].maxOccupancy
  }

  /** Most guests the rooms of the reservations inside the window could hold, whatever their tier. */
  function WindowAllCapacity(inv: Inventory, rs: seq<Reservation>, start: Day, end: Day): int
    requires WindowKnown(inv, rs, start, end)
  {
    if rs == [] then 0
    else
      var last := rs[|rs| - 1];
      WindowAllCapacity(inv, rs[..|rs| - 1], start, end) + (if InWindow(last, start, end) then AllCapacity(inv, last.rooms) else 0)
  }

  /** Every booked room's capacity is counted in exactly one tier. */
  lemma {:induction false} CapacityByTier(inv: Inventory, rooms: seq<Room>)
    requires KnownRooms(inv, rooms)
    ensures CapacityIn(inv, rooms, ThreeStar) + CapacityIn(inv, rooms, FourStar) + CapacityIn(inv, rooms, FiveStar)
      == AllCapacity(inv, rooms)
  {
    if rooms != [] {
      CapacityByTier(inv, rooms[..|rooms| - 1]);
    }
  }

  /** The three tier capacities of the window add up to the capacity of every room in it. */
  lemma {:induction false} WindowCapacityByTier(inv: Inventory, rs: seq<Reservation>, start: Day, end: Day)
    requires WindowKnown(inv, rs, start, end)
    ensures WindowCapacity(inv, rs, start, end, ThreeStar) + WindowCapacity(inv, rs, start, end, FourStar)
      + WindowCapacity(inv, rs, start, end, FiveStar) == WindowAllCapacity(inv, rs, start, end)
  {
    if rs != [] {
      var last := rs[|rs| - 1];
      WindowCapacityByTier(inv, rs[..|rs| - 1], start, end);
      if InWindow(last, start, end) {
        CapacityByTier(inv, last.rooms);
      }
    }
  }

  /** The total capacity figure is the capacity of every room of every reservation inside the window. */
  lemma MaximalTotalIsAllCapacity(inv: Inventory, rs: seq<Reservation>, start: Day, end: Day)
    requires WindowKnown(inv, rs, start, end)
    ensures MaximalOccupancy(inv, rs, start, end)[3] == WindowAllCapacity(inv, rs, start, end)
  {
    WindowCapacityByTier(inv, rs, start, end);
  }

  /** Capacity figures are the same whether or not the stays outside the window are in the store. */
  lemma {:induction false} CapacitySeesOnlyWindow(inv: Inventory, rs: seq<Reservation>, start: Day, end: Day, tier: Tier)
    requires WindowKnown(inv, rs, start, end)
    ensures WindowKnown(inv, Window(rs, start, end), start, end)
    ensures WindowCapacity(inv, Window(rs, start, end), start, end, tier) == WindowCapacity(inv, rs, start, end, tier)
  {
    WindowKeepsKnown(inv, rs, start, end);
    if rs != [] {
      var init, last := rs[..|rs| - 1], rs[|rs| - 1];
      var w := Window(init, start, end);
      CapacitySeesOnlyWindow(inv, init, start, end, tier);
      assert Window(rs, start, end) == if InWindow(last, start, end) then w + [last] else w by {
        SplitLast([], rs);
        WindowSnoc(init, last, start, end);
      }
      assert (w + [last])[..|w|] == w;
    }
  }

  /** The window of a store of known room types, and the store without its last entry, are known too. */
  lemma WindowKeepsKnown(inv: Inventory, rs: seq<Reservation>, start: Day, end: Day)
    requires WindowKnown(inv, rs, start, end)
    ensures WindowKnown(inv, Window(rs, start, end), start, end)
    ensures rs != [] ==> WindowKnown(inv, rs[..|rs| - 1], start, end)
  {
    var win := Window(rs, start, end);
    forall i | 0 <= i < |win| && InWindow(win[i], start, end)
      ensures KnownRooms(inv, win[i].rooms)
    {
      var j :| 0 <= j < |rs| && rs[j] == win[i];
    }
    if rs != [] {
      var init := rs[..|rs| - 1];
      forall i | 0 <= i < |init| && InWindow(init[i], start, end)
        ensures KnownRooms(inv, init[i].rooms)
      {
        assert init[i] == rs[i];
      }
    }
  }

  /** Every room's price is credited to exactly one billing tier. */
  lemma {:induction false} IncomeByTier(inv: Inventory, rooms: seq<Room>, checkIn: Day, checkOut: Day, resType: string)
    requires KnownRooms(inv, rooms)
    requires checkIn <= checkOut
    ensures IncomeIn(inv, rooms, checkIn, checkOut, resType, ThreeStar)
      + IncomeIn(inv, rooms, checkIn, checkOut, resType, FourStar)
      + IncomeIn(inv, rooms, checkIn, checkOut, resType, FiveStar)
      == RoomsCost(inv, rooms, checkIn, checkOut, resType)
  {
    if rooms != [] {
      IncomeByTier(inv, rooms[..|rooms| - 1], checkIn, checkOut, resType);
    }
  }

  /**
   * Total income is the price of every reservation inside the window,
   * recomputed from its rooms, dates and type as a multi-room booking.
   */
  lemma {:induction false} BillingTotalIsStayCost(inv: Inventory, rs: seq<Reservation>, start: Day, end: Day)
    requires WindowPriceable(inv, rs, start, end)
    ensures Billing(inv, rs, start, end)[3] == WindowStayCost(inv, rs, start, end)
  {
    if rs != [] {
      var init := rs[..|rs| - 1];
      var r := rs[|rs| - 1];
      assert WindowPriceable(inv, init, start, end) by {
        forall i | 0 <= i < |init| && InWindow(init[i], start, end)
          ensures Priceable(inv, init[i])
        {
          assert init[i] == rs[i];
        }
      }
      BillingTotalIsStayCost(inv, init, start, end);
      if InWindow(r, start, end) {
        IncomeByTier(inv, r.rooms, r.checkIn, r.checkOut, r.resType);
      }
    }
  }

  /** Every room inside the window holds no more guests than its type allows, and not fewer than none. */
  predicate WithinCapacity(inv: Inventory, rs: seq<Reservation>, start: Day, end: Day)
  {
    forall i :: 0 <= i < |rs| && InWindow(rs[i], start, end) ==> RoomsWithinCapacity(inv, rs[i].rooms)
  }

  /** Every room of `rooms` is of a known type and holds between 0 and its type's maximum guests. */
  predicate RoomsWithinCapacity(inv: Inventory, rooms: seq<Room>)
  {
    forall i :: 0 <= i < |rooms| ==>
      rooms[i].roomType in inv && 0 <= rooms[i].occupancy <= inv[rooms[i].roomType].maxOccupancy
  }

  /** Guests in a tier's rooms lie between zero and those rooms' capacity. */
  lemma {:induction false} GuestsWithinCapacity(inv: Inventory, rooms: seq<Room>, tier: Tier)
    requires RoomsWithinCapacity(inv, rooms)
    ensures KnownRooms(inv, rooms)
    ensures 0 <= GuestsIn(rooms, tier) <= CapacityIn(inv, rooms, tier)
  {
    if rooms != [] {
      GuestsWithinCapacity(inv, rooms[..|rooms| - 1], tier);
    }
  }

  /** Over the window, each tier's guests lie between zero and its booked capacity. */
  lemma {:induction false} WindowGuestsWithinCapacity(inv: Inventory, rs: seq<Reservation>, start: Day, end: Day, tier: Tier)
    requires WithinCapacity(inv, rs, start, end)
    ensures WindowKnown(inv, rs, start, end)
    ensures 0 <= WindowGuests(rs, start, end, tier) <= WindowCapacity(inv, rs, start, end, tier)
  {
    forall i | 0 <= i < |rs| && InWindow(rs[i], start, end)
      ensures KnownRooms(inv, rs[i].rooms)
    {
      GuestsWithinCapacity(inv, rs[i].rooms, tier);
    }
    if rs != [] {
      var init := rs[..|rs| - 1];
      assert WithinCapacity(inv, init, start, end) by {
        forall i | 0 <= i < |init| && InWindow(init[i], start, end)
          ensures RoomsWithinCapacity(inv, init[i].rooms)
        {
          assert init[i] == rs[i];
        }
      }
      WindowGuestsWithinCapacity(inv, init, start, end, tier);
      if InWindow(rs[|rs| - 1], start, end) {
        GuestsWithinCapacity(inv, rs[|rs| - 1].rooms, tier);
      }
    }
  }

  /** A share of a non-negative whole no larger than the whole is between 0 and 100 percent. */
  lemma PercentBounds(current: int, maximum: int)
    requires 0 <= current <= maximum
    ensures 0.0 <= Percent(current, maximum) <= 100.0
  {
    if maximum != 0 {
      assert current as real / maximum as real <= 1.0;
    }
  }

  /**
   * When no room holds more guests than its type allows, every occupancy rate
   * is a percentage between 0 and 100.
   */
  lemma RatesArePercentages(inv: Inventory, rs: seq<Reservation>, start: Day, end: Day)
    requires WithinCapacity(inv, rs, start, end)
    ensures WindowKnown(inv, rs, start, end)
    ensures forall k :: 0 <= k < 4 ==> 0.0 <= OccupancyRates(inv, rs, start, end)[k] <= 100.0
  {
    WindowGuestsWithinCapacity(inv, rs, start, end, ThreeStar);
    WindowGuestsWithinCapacity(inv, rs, start, end, FourStar);
    WindowGuestsWithinCapacity(inv, rs, start, end, FiveStar);
    var current := OccupancyFigures(rs, start, end);
    var maximum := MaximalOccupancy(inv, rs, start, end);
    forall k | 0 <= k < 4
      ensures 0.0 <= OccupancyRates(inv, rs, start, end)[k] <= 100.0
    {
      PercentBounds(current[k], maximum[k]);
    }
  }

  /** With no reservation inside the window, the booked capacity of every tier is zero. */
  lemma {:induction false} EmptyWindowCapacity(inv: Inventory, rs: seq<Reservation>, start: Day, end: Day, tier: Tier)
    requires forall i :: 0 <= i < |rs| ==> !InWindow(rs[i], start, end)
    ensures WindowKnown(inv, rs, start, end)
    ensures WindowCapacity(inv, rs, start, end, tier) == 0
  {
    if rs != [] {
      var init := rs[..|rs| - 1];
      assert forall i :: 0 <= i < |init| ==> init[i] == rs[i];
      EmptyWindowCapacity(inv, init, start, end, tier);
    }
  }

  /** A window with no reservation inside it reports all-zero rates rather than failing. */
  lemma EmptyWindowRates(inv: Inventory, rs: seq<Reservation>, start: Day, end: Day)
    requires forall i :: 0 <= i < |rs| ==> !InWindow(rs[i], start, end)
    ensures WindowKnown(inv, rs, start, end)
    ensures OccupancyRates(inv, rs, start, end) == [0.0, 0.0, 0.0, 0.0]
  {
    EmptyWindowCapacity(inv, rs, start, end, ThreeStar);
    EmptyWindowCapacity(inv, rs, start, end, FourStar);
    EmptyWindowCapacity(inv, rs, start, end, FiveStar);
  }
}
